=== FILE: README.md ===
# CAT synchronisation engine, modelled in Dafny

`tcp-macro.js` is a small Node.js client for a CAT (Computer Aided
Transceiver) text protocol. It keeps three radio parameters in step with a
CAT server:

- the VFO-A frequency (`FA`);
- `ZZIS`;
- `ZZLA`.

It turns keyboard shortcuts into CAT commands. A key never sets a value
outright. It queues a relative *pending step* and sends a bare read request
(`FA;`, `ZZIS;`, `ZZLA;`). When the radio's authoritative report comes back,
the engine applies the step to the reported value. `ZZIS` is clamped to
[100, 10000] and `ZZLA` to [0, 100]; the frequency is not clamped. The engine
then writes the result once and clears the step.

This project models that engine as pure functions over one immutable state
record:

- `JsText`: the JavaScript string operations the engine relies on, with their
  ECMAScript behaviour. These are `trim`, `split`, the non-empty filter,
  `substring`, `padStart`, `startsWith` and `Number.prototype.toString` on
  integers. `toString` is modelled as plain decimal digits: exact for the
  values the engine renders, not for huge numbers (see "## Left out").
- `JsNumber`: `parseInt` without a radix argument. It skips leading
  whitespace, takes an optional sign, switches to radix 16 after a
  `0x`/`0X` prefix, reads the longest run of digits, and gives NaN (`None`)
  when there are no digits. Negative zero is the integer 0.
- `Codec`: the wire format. It covers:
  - each knob's tag and payload substring (`[2,13)` for `FA`, `[4,9)` for
    `ZZIS`, `[4,end)` for `ZZLA`);
  - the outbound `Command`s and their exact text (`Render`);
  - how an inbound chunk becomes fragments.
- `Reconcile`: one parameter's `current`/`pending` pair, the clamps, the
  outcome of a report, and the overwrite of a pending step by a new intent.
- `Engine`: the module-level variables as a `State`, the `sendCAT` gate, and
  these handlers:
  - the `data` handler (chunk, then fragments, then the `FA`/`ZZIS`/`ZZLA`
    branches in that order);
  - the key listener (step toggle, then at most one intent);
  - connect, close and the reconnect timer.

  `Run` folds a sequence of events, collecting every command handed to the
  socket, in order.
- `Texts`: the exact wire text of the commands used in the worked scenarios.
- `Properties`: what the engine promises across events. The invariant over
  any run includes a proof that every `ZZIS`/`ZZLA` write it sends lies in
  the knob's range.

The flag `live` stands for "a socket exists and is not destroyed"
(`cat && !cat.destroyed`). It is true from the moment `connectCAT` creates
a socket, including the start-up call, and false from `close` until the
reconnect timer fires. Every command issued while `live` holds counts as
sent.

The code does not clamp a report that arrives with no step pending: it
stores the reported value as it is. So `ZZIS` or `ZZLA` can hold a value
outside its range, even though the design treats the ranges as invariants of
the stored values. The model follows the code: see
`Properties.StrayReportUnclamped` and `Properties.ReportWithNothingPending`.
What does hold for every run is that every value the engine itself writes
is in range (`Properties.RunSafe`).

## Model

| member | source | states |
|---|---|---|
| JsText.Trim | tcp-macro.js:51 | The result is a slice of the input with only whitespace before and after it, so nothing inside is removed. It has no ECMAScript whitespace or line terminator at either end, which makes that slice unique, and text that already has none is returned unchanged. |
| JsText.Split | tcp-macro.js:54 | Splitting on `;` gives at least one part, no part contains `;`, and joining the parts with `;` gives back the input (so `""` splits into `[""]`). |
| JsText.SplitAppend | tcp-macro.js:54 | Splitting `a + ";" + b` is splitting `a`, then `b`, one list after the other. |
| JsText.NonEmptyMembers | tcp-macro.js:54 | `filter(c => c.length > 0)` keeps exactly the non-empty parts. |
| JsText.NonEmptyAppend | tcp-macro.js:54 | The filter distributes over concatenation, so the arrival order of the parts is kept. |
| JsText.Substring | tcp-macro.js:59 | `substring(start, end)` inside the string is the slice; when the end runs past the string it stops at the end; past the end on both sides it is empty. |
| JsText.PadStart | tcp-macro.js:80 | `padStart` yields `max(len, width)` characters: fill characters, then the original text unchanged as a suffix. It never truncates. |
| JsText.NatToDecimal | tcp-macro.js:120 | `toString` of a natural number: digits only, with no leading zero except in `"0"`. |
| JsText.NatToDecimalLength | tcp-macro.js:120 | The decimal text of `n` fits in `w` characters exactly when `n < 10^w`. |
| JsText.IntToString | tcp-macro.js:120 | `toString` of an integer: a leading `-` exactly when it is negative, followed by exactly the decimal text of its magnitude. |
| JsNumber.ParseInt | tcp-macro.js:59-60 | `parseInt` gives NaN when only whitespace is left, or when the first character after the whitespace is neither a sign nor a digit. A negative result only comes from a `-` right after the whitespace. |
| JsNumber.DigitRun | tcp-macro.js:59 | The digit run `parseInt` reads is a prefix of its input, made only of digits, and the longest such prefix. |
| JsNumber.ParseIntToString | tcp-macro.js:59 | `parseInt(n.toString()) == n` for every integer `n` of the model, where integers are exact and `toString` writes plain decimal digits. |
| JsNumber.ParseIntPadded | tcp-macro.js:73 | `parseInt` of a zero-padded decimal, of any width, is the value that was padded. |
| JsNumber.ParseIntReadsLeadingRun | tcp-macro.js:59 | For leading whitespace `w`, a sign of `""`, `+` or `-`, a non-empty decimal digit run `z`, and any `rest` that does not start with a digit or make a `0x` prefix, `parseInt(w + sign + z + rest)` is the value of `z`, negated for `-`. Whitespace is skipped, and whatever follows the run is ignored. |
| JsNumber.ParseIntHex | tcp-macro.js:59 | After whitespace and a sign, a `0x` prefix switches `parseInt` to radix 16: `parseInt(" -0x1A")` is -26. |
| JsNumber.ParseIntNoLeadingDigit | tcp-macro.js:59-60 | A payload with no decimal digit after leading whitespace and an optional sign is NaN. |
| Codec.FieldOf | tcp-macro.js:58-59 | Each tag is upper-case letters, at least two of them. The payload starts right after the tag. A fixed payload end lies exactly `width` characters further on. |
| Codec.PaddedDecimal | tcp-macro.js:97 | `v.toString().padStart(w, "0")` is exactly `w` characters for `0 <= v < 10^w` and longer for `v >= 10^w` (no truncation). It holds only digits and `-`. |
| Codec.Body | tcp-macro.js:80 | Every command starts with an upper-case mnemonic and contains no `;`. |
| Codec.Render | tcp-macro.js:120 | The text sent for a command ends with `;` and contains no other `;`. |
| Codec.Fragments | tcp-macro.js:51-54 | Every fragment of a chunk is non-empty and free of `;`. |
| Codec.Decode | tcp-macro.js:58-59 | A fragment that does not start with the knob's tag yields no number for that knob. |
| Codec.TagsExclusive | tcp-macro.js:58-89 | No fragment starts with two different tags among `FA`, `ZZIS` and `ZZLA`. |
| Codec.FragmentsOfTerminated | tcp-macro.js:51-54 | A `;`-free text that does not start with whitespace, followed by `;`, is a single fragment. |
| Codec.FragmentsOfRender | tcp-macro.js:51-54 | A chunk holding one rendered command is one fragment: the command without its `;`. |
| Codec.DecodeRenderWrite | tcp-macro.js:58-97 | Round trip: for `0 <= v < 10^width`, a rendered write is one fragment. It decodes to `v` for its own knob and to nothing for the other two. |
| Codec.DecodeOwnWrite | tcp-macro.js:72-80 | A payload padded to exactly the knob's width parses back to the value through the knob's substring. |
| Codec.DecodeOtherTag | tcp-macro.js:58-89 | A fragment that starts with one knob's tag is not read by another knob's branch. |
| Codec.DecodeLevelAnyWidth | tcp-macro.js:89-97 | `ZZLA` reads to the end of the fragment, so its round trip holds for every non-negative value, whatever its length. |
| Codec.FrequencyBeyondWidth | tcp-macro.js:118-120 | A frequency of `10^11` or more is written with a payload longer than eleven digits. The `FA` decoder (line 59) reads that payload back as a smaller number. |
| Codec.DecodeMalformed | tcp-macro.js:58-60 | A tagged fragment whose payload substring has no leading digit carries no number for any knob. |
| Codec.DecodeReadRequest | tcp-macro.js:58-60 | A bare tag with no payload (a read request) carries no number for any knob. |
| Reconcile.Clamp | tcp-macro.js:78 | `Math.max(lo, Math.min(hi, x))` lies in `[lo, hi]`. It is `x` when `x` is in range, and the nearer bound otherwise. |
| Reconcile.Settle | tcp-macro.js:76-95 | A settled `ZZIS` value lies in [100, 10000] and a settled `ZZLA` value in [0, 100]. A value already in range is kept. One below the range becomes the lower bound and one above it the upper bound, as `Math.max(lo, Math.min(hi, x))` gives. The frequency is never clamped. |
| Reconcile.Report | tcp-macro.js:60-100 | A report always clears the pending step. It produces a write exactly when a step was pending. With nothing pending it stores the reported value. With a step pending it stores `Settle(reported + pending)` and writes that value. |
| Reconcile.ReportIgnoresStaleValue | tcp-macro.js:61-92 | The outcome of a report does not depend on the value held before it; the radio is the source of truth. |
| Reconcile.QueueOverwrites | tcp-macro.js:169-209 | Two intents before a reply have the effect of the second alone. |
| Reconcile.ResolveOnce | tcp-macro.js:64-66 | After a resolution, a further report writes nothing and stores the reported value: a step is applied at most once. |
| Reconcile.ResolvedWriteDecodes | tcp-macro.js:76-100 | A resolution's write is always one fragment that its own decoder reads back for `ZZIS`/`ZZLA`, and for `FA` when the frequency has at most eleven digits. |
| Engine.Put | tcp-macro.js:61-99 | Storing a knob's parameter changes that knob and no other field of the state. |
| Engine.OnReport | tcp-macro.js:58-103 | One branch of the data handler: NaN or a foreign tag does nothing. A number always clears the knob's pending step. Anything sent is the single write of the knob's new value, and it happens only while the socket is live and a step was pending. |
| Engine.OnChunk | tcp-macro.js:50-56 | A chunk that is whitespace alone does nothing. A chunk holding one fragment is handled as that fragment. |
| Engine.KeyIntent | tcp-macro.js:166-237 | Only a key press can fire an intent. A nudge or the `ZZIS` reset needs Ctrl+Alt, and the reset fires exactly for Ctrl+Alt+F2. Without Ctrl+Alt only F16 and F21-F24 act. |
| Engine.OnIntent | tcp-macro.js:168-237 | Every intent issues exactly one command while the socket is live, and none otherwise. A nudge queues exactly `StepDelta` as its knob's pending step, never changes that knob's current value, leaves the other two knobs untouched, and sends only the bare read request for its knob. An intent changes nothing but the parameters and the mute and PTT states. |
| Engine.OnKey | tcp-macro.js:139-237 | A key event sends at most one command, a key release sends none, and the link flags are never touched. |
| Engine.OnConnected | tcp-macro.js:36-41 | On connect the three read requests go out in the order `FA`, `ZZIS`, `ZZLA`, and no state changes. Nothing goes out while the socket is down. |
| Engine.OnClosed | tcp-macro.js:45-48 | A close takes the link down and schedules one reconnect. It sends nothing and touches no other field. |
| Engine.OnRetry | tcp-macro.js:33-47 | When the reconnect timer fires, the link is live if a reconnect was scheduled or it already was. The timer is then spent, nothing is sent, and no other field changes. |
| Engine.Next | tcp-macro.js:36-237 | Connect, close and the timer never change a parameter. A close always leaves the link down. A key release sends nothing. |
| Engine.ToggleStep | tcp-macro.js:159-164 | The step toggle touches only `stepSize` and `stepToggleLock`, and only for F1. A press flips the step between 100 and 1000 Hz and sets the lock only with Ctrl+Alt held and the lock clear; any other press changes nothing. Releasing F1 only clears the lock. |
| Properties.OnReportFrame | tcp-macro.js:58-103 | One branch of the data handler changes only its own knob's parameter, and sends nothing while the socket is down. |
| Properties.OnReadingFrame | tcp-macro.js:56-104 | The three branches together change only the three parameters and send nothing while the socket is down. |
| Properties.OnFragmentFrame | tcp-macro.js:56-104 | A fragment changes only the three parameters and sends nothing while the socket is down. |
| Properties.FragmentsFrame | tcp-macro.js:56-104 | A whole chunk changes only the three parameters and sends nothing while the socket is down. |
| Properties.DecodeExclusive | tcp-macro.js:58-89 | A fragment that carries a number for one knob carries none for the others. |
| Properties.ReadingOnlyKnob | tcp-macro.js:56-104 | When a fragment reads as a number for one knob only, the other two branches pass it over. |
| Properties.FragmentReports | tcp-macro.js:56-104 | A fragment carrying a number for knob `k` is exactly one report for `k`. It updates `k` alone and sends that report's write, if any. |
| Properties.FragmentIgnored | tcp-macro.js:56-104 | A fragment with no number for any knob changes nothing and sends nothing. With `Codec.DecodeMalformed`, this covers every tagged fragment whose payload has no leading digit. |
| Properties.FoldAppend | tcp-macro.js:56 | Handling two runs of items one after the other is handling their concatenation, with the sends in order. |
| Properties.FoldOne | tcp-macro.js:56 | Handling a single item is taking one step. |
| Properties.ChunkInOrder | tcp-macro.js:51-56 | Two `;`-separated pieces of one chunk are handled as if they arrived one after the other, first piece first, with the sends in that order. |
| Properties.ChunkOfWrite | tcp-macro.js:50-105 | A chunk holding one rendered in-range value for knob `k` acts exactly as one report of that value for `k`. |
| Properties.ReportResolvesPending | tcp-macro.js:60-100 | A report `c` with step `d != 0` pending stores `Settle(c + d)`, clears the step, and sends exactly one write of that value. |
| Properties.ReportWithNothingPending | tcp-macro.js:61-64 | A report with nothing pending stores the reported value, even one outside the knob's range, and sends nothing. |
| Properties.ChunkWhileDown | tcp-macro.js:110-115 | Data handled while the socket is down sends nothing and leaves the link down. |
| Properties.KeyWhileDown | tcp-macro.js:110-115 | A key handled while the socket is down sends nothing and leaves the link down. |
| Properties.SilentWhenDown | tcp-macro.js:110-115 | While no live socket exists, no event sends anything, and only the reconnect timer makes the link live again. |
| Properties.RunSilentWhileDown | tcp-macro.js:45-48 | From a closed link, any run without the reconnect timer sends nothing and leaves the link closed. |
| Properties.ConnectSequence | tcp-macro.js:36-41 | A connect sends `FA;`, `ZZIS;`, `ZZLA;` in that order and changes no state. |
| Properties.CloseKeepsParameters | tcp-macro.js:45-48 | A close changes only the link flags. The reconnect timer then restores a live link with every value and pending step as before. |
| Properties.ReconnectReplaysReads | tcp-macro.js:33-48 | Close, reconnect timer and connect, in sequence, send the three read requests and leave every value and pending step unchanged. |
| Properties.LiveReportResolves | tcp-macro.js:60-115 | On a live link, a report answering a pending step sends exactly the one write of the settled value. |
| Properties.AfterReconnect | tcp-macro.js:33-48 | Any event after a reconnect is handled on the reconnected state, and its sends follow the replayed read requests. |
| Properties.ReconnectKeepsPending | tcp-macro.js:45-48 | After a reconnect the link is live and every knob holds the value and pending step it had before the close. |
| Properties.KeyMapCtrlAlt | tcp-macro.js:167-217 | With Ctrl+Alt held:<ul><li>UP/UP ARROW and DOWN/DOWN ARROW step the frequency;</li><li>PAGE UP/PAGE DOWN step `ZZIS`;</li><li>HOME/END step `ZZLA`;</li><li>F2 resets `ZZIS`;</li><li>F3 toggles mute.</li></ul> |
| Properties.KeysNeedCtrlAlt | tcp-macro.js:167 | Without Ctrl+Alt, none of those ten keys asks for anything. |
| Properties.KeyMap | tcp-macro.js:221-237 | With or without Ctrl+Alt:<ul><li>F16 toggles mute;</li><li>F22/F23 step the band down/up;</li><li>F21/F24 toggle PTT.</li></ul>A key release never triggers an intent. |
| Properties.KeyIntentBound | tcp-macro.js:169-233 | Only the fifteen key names the listener tests can fire an intent: the Ctrl+Alt arrows, Page Up/Down, F2, Home, End and F3, and F16 and F21-F24. |
| Properties.IntentOverwrites | tcp-macro.js:169-209 | A second step intent replaces the first rather than adding to it. Each intent sends its knob's bare read request. |
| Properties.StepSizes | tcp-macro.js:169-205 | A frequency step is `±stepSize`, a `ZZIS` step `±100` and a `ZZLA` step `±5`. |
| Properties.ResetShiftWrites | tcp-macro.js:191-195 | Ctrl+Alt+F2 sets `ZZIS` to 3000 and sends `ZZIS03000;` at once. It leaves the pending `ZZIS` step in place. |
| Properties.StepToggleOncePerPress | tcp-macro.js:159-164 | Ctrl+Alt+F1 switches the step between 100 and 1000 Hz once. Repeats while F1 is held do nothing, and releasing F1 re-arms the toggle. |
| Properties.MuteToggles | tcp-macro.js:210-226 | F16, or F3 with Ctrl+Alt, flips the mute state and sends `ZZMA1;` or `ZZMA0;` to match the new state. |
| Properties.PttToggles | tcp-macro.js:233-237 | F21 or F24 flips the PTT state and sends `TX;` when it turns on, `RX;` when it turns off. |
| Properties.InitialInv | tcp-macro.js:12-23 | The start-up state (1000 Hz step, nothing pending) satisfies the engine invariant. |
| Properties.OnReportSafe | tcp-macro.js:58-103 | A report keeps the engine invariant, and any write it sends is within the knob's range. |
| Properties.OnReadingSafe | tcp-macro.js:56-104 | The three branches together keep the invariant and send only in-range writes. |
| Properties.OnFragmentSafe | tcp-macro.js:56-104 | A fragment keeps the invariant and sends only in-range writes. |
| Properties.FragmentsSafe | tcp-macro.js:50-105 | A chunk keeps the invariant and sends only in-range writes. |
| Properties.NudgeSafe | tcp-macro.js:169-209 | A step intent queues only a step the invariant allows: `±100`/`±1000` for the frequency, `±100` for `ZZIS`, `±5` for `ZZLA`. |
| Properties.OnIntentSafe | tcp-macro.js:169-237 | Every intent keeps the invariant; the reset writes 3000, inside the `ZZIS` range. |
| Properties.OnKeySafe | tcp-macro.js:159-237 | A key event keeps the invariant: the toggle alternates the step between 100 and 1000. |
| Properties.NextSafe | tcp-macro.js:33-237 | Every event keeps the invariant and sends only in-range writes. |
| Properties.RunSafe | tcp-macro.js:33-237 | From any state satisfying the invariant, for any run, the invariant holds at the end and every `ZZIS`/`ZZLA` write sent is within its range. |
| Properties.FrequencyStepDown | tcp-macro.js:58-67 | The report `FA00014200000;` with a 1000 Hz step down pending sends `FA00014199000;` and stores 14199000. |
| Properties.ShiftAtCeiling | tcp-macro.js:72-83 | At the top of the `ZZIS` range a step up still sends one write, `ZZIS10000;`. |
| Properties.StrayReportUnclamped | tcp-macro.js:72-75 | `ZZIS99999;` arriving with nothing pending is stored as 99999, outside the range, and nothing is sent. |
| Texts.ReadTexts | tcp-macro.js:38-40 | The read requests are exactly `FA;`, `ZZIS;` and `ZZLA;`. |
| Texts.Text3000 | tcp-macro.js:193 | The reset write renders as `ZZIS03000;`. |
| Texts.Text50 | tcp-macro.js:89-97 | A `ZZLA` write of 50 renders as `ZZLA050;`, three digits wide, and the `ZZLA` payload is read to the end of the fragment. |
| Texts.Text100 | tcp-macro.js:72-80 | A `ZZIS` write of 100 renders as `ZZIS00100;`, five digits wide. The `ZZIS` payload is read from position 4 up to position 9, which gives `00100`. |

## Left out

- The TCP socket, the `net` module and the 3-second `setTimeout`
  (tcp-macro.js:33-48, 107) are not modelled. They become the events
  `Connected`, `Closed` and `RetryFired` acting on the flags `live` and
  `retryScheduled`.
- Node buffers writes made while a socket is still connecting. The model
  treats every command passed to `cat.write` while `live` holds as sent.
- The `error` handler (line 43) only logs, and is left out.
- The keyboard library, the `pressedKeys` combo debug string, and the
  `recentModifiers`/`Date.now()` 200 ms window (lines 125-156) are foreign
  code and wall-clock time, so they are left out. A key event carries a
  boolean `ctrlAlt` instead.
- `ctrlAltActive()` is evaluated twice per event, at lines 159 and 167. The
  model reads it once per event.
- Engine.KeyIntent: the source tests each key name in a separate `if`. The
  model uses one `if … else if` chain. The key names are distinct, so at
  most one branch fires in either form.
- All `console.log`/`console.error` output is left out, including the
  "predicted" values at lines 181-188 and 200-206. None of it affects state.
- `data.toString()` UTF-8 decoding is left out. A chunk is already a
  sequence of characters.
- JsText.IntToString: it always writes plain decimal digits. JavaScript
  writes integers of 10^21 or more in exponent form (`"1e+21"`, which
  `parseInt` reads back as 1), and is not exact above 2^53. The engine never
  renders such a value: `FA` writes stay below 10^11 plus one step in magnitude, and
  `ZZIS`/`ZZLA` writes are clamped. So `JsNumber.ParseIntToString` holds for
  the model's exact integers, not for every JavaScript number.
- JsNumber.ParseInt: the model uses exact integers. JavaScript numbers lose
  precision above 2^53, and become `Infinity` for very long digit runs; only
  `ZZLA`, whose substring runs to the end of the fragment, can reach either.
- Properties.AfterReconnect: it is stated for an arbitrary next event in
  terms of the step that event takes on the reconnected state. A pending
  step being resolved after a reconnect follows from it together with
  `ReconnectKeepsPending` and `LiveReportResolves`. It is not one lemma over
  the four-event run.
- Band up/down (lines 229-230) is modelled as a send that changes no state.
  It has no property beyond `KeyMap` and the invariant lemmas.

=== FILE: codec.dfy ===
/** The CAT wire format: which tag each tracked parameter uses, where its
    payload sits in an inbound fragment, how commands are rendered, and how
    an inbound chunk is cut into fragments (tcp-macro.js). */
module Codec {
  import opened Wrappers
  import opened JsText
  import opened JsNumber

  /** The three parameters the engine keeps in step with the radio:
      the VFO-A frequency (`FA`), `ZZIS` and `ZZLA`. */
  datatype Knob = FA | ZZIS | ZZLA

  /** How one parameter travels on the wire: its tag, the substring positions
      the inbound handler passes to `parseInt` (`end` absent means "to the end
      of the fragment"), and the zero-padded width of outbound writes. */
  datatype Field = Field(tag: string, start: nat, end: Option<nat>, width: nat)

  function FieldOf(k: Knob): (f: Field)
    ensures |f.tag| >= 2 && forall i :: 0 <= i < |f.tag| ==> 'A' <= f.tag[i] <= 'Z'
    ensures f.start == |f.tag| && f.width >= 1
    ensures f.end.None? || f.end.value == f.start + f.width
  {
    match k
    case FA => Field("FA", 2, Some(13), 11)
    case ZZIS => Field("ZZIS", 4, Some(9), 5)
    case ZZLA => Field("ZZLA", 4, None, 3)
  }

  /** Everything the engine hands to the socket. */
  datatype Command =
    | Read(knob: Knob)                // bare tag: ask the radio for its value
    | Write(knob: Knob, value: int)   // tag, zero-padded decimal value
    | Mute(on: bool)                  // ZZMA1 / ZZMA0
    | Band(up: bool)                  // BU / BD
    | Ptt(on: bool)                   // TX / RX

  /** A character of a decimal numeral: a digit or a minus sign. */
  predicate IsNumeral(c: char) {
    IsDecimalDigit(c) || c == '-'
  }

  /** `v.toString().padStart(w, "0")`: at least `w` characters, exactly `w`
      when `0 <= v < 10^w`, made of digits and possibly a minus sign. */
  function PaddedDecimal(v: int, w: nat): (p: string)
    requires w >= 1
    ensures |p| >= w
    ensures 0 <= v < Pow10(w) ==> |p| == w
    ensures v >= Pow10(w) ==> |p| > w
    ensures forall i :: 0 <= i < |p| ==> IsNumeral(p[i])
  {
    var magnitude: nat := if v >= 0 then v else 0;
    NatToDecimalLength(magnitude, w);
    var d := IntToString(v);
    PadKeepsNumeral(d, w);
    PadStart(d, w, '0')
  }

  /** Zero-padding a numeral leaves a numeral. */
  lemma PadKeepsNumeral(d: string, w: nat)
    requires forall i :: 0 <= i < |d| ==> IsDecimalDigit(d[i]) || d[i] == '-'
    ensures forall i :: 0 <= i < |PadStart(d, w, '0')| ==> IsNumeral(PadStart(d, w, '0')[i])
  {
    var p := PadStart(d, w, '0');
    forall i | 0 <= i < |p|
      ensures IsNumeral(p[i])
    {
      if i >= |p| - |d| {
        assert p[i] == p[|p| - |d|..][i - (|p| - |d|)];
      }
    }
  }

  /** The payload of a write of `v` to knob `k`. */
  function Payload(k: Knob, v: int): string
  {
    PaddedDecimal(v, FieldOf(k).width)
  }

  /** A command without its `;` terminator: an upper-case mnemonic first,
      and no `;` anywhere. */
  function Body(c: Command): (b: string)
    ensures |b| >= 2 && 'A' <= b[0] <= 'Z'
    ensures ';' !in b
  {
    match c
    case Read(k) =>
      var t := FieldOf(k).tag;
      assert forall i :: 0 <= i < |t| ==> t[i] != ';';
      t
    case Write(k, v) =>
      var t := FieldOf(k).tag;
      var p := Payload(k, v);
      var b := t + p;
      assert forall i :: 0 <= i < |b| ==> b[i] != ';' by {
        forall i | 0 <= i < |b| ensures b[i] != ';' {
          if i < |t| { assert b[i] == t[i]; } else { assert b[i] == p[i - |t|]; }
        }
      }
      b
    case Mute(on) => if on then "ZZMA1" else "ZZMA0"
    case Band(up) => if up then "BU" else "BD"
    case Ptt(on) => if on then "TX" else "RX"
  }

  /** The exact text written to the socket for a command: its body and a
      single terminating `;`. */
  function Render(c: Command): (s: string)
    ensures |s| >= 3 && s[|s| - 1] == ';'
    ensures ';' !in s[..|s| - 1]
  {
    var s := Body(c) + ";";
    assert s[..|s| - 1] == Body(c);
    s
  }

  /** What the inbound handler does with one chunk before looking at tags:
      trim it, split it on `;`, and drop the empty pieces. */
  function Fragments(chunk: string): (frags: seq<string>)
    ensures forall i :: 0 <= i < |frags| ==> |frags[i]| > 0 && ';' !in frags[i]
  {
    var parts := Split(Trim(chunk), ';');
    var frags := NonEmpty(parts);
    NonEmptyMembers(parts);
    assert forall i :: 0 <= i < |frags| ==> frags[i] in parts;
    frags
  }

  /** The value a fragment reports for knob `k`: `None` unless the fragment
      starts with the knob's tag and `parseInt` finds a number in the
      knob's substring. */
  function Decode(k: Knob, frag: string): (r: Option<int>)
    ensures !StartsWith(frag, FieldOf(k).tag) ==> r.None?
  {
    var f := FieldOf(k);
    if StartsWith(frag, f.tag) then
      var end := if f.end.Some? then f.end.value else |frag|;
      ParseInt(Substring(frag, f.start, end))
    else None
  }

  /** What one fragment says about each knob. */
  datatype Reading = Reading(fa: Option<int>, zzis: Option<int>, zzla: Option<int>)
  {
    function At(k: Knob): Option<int> {
      match k
      case FA => fa
      case ZZIS => zzis
      case ZZLA => zzla
    }
  }

  /** The fragment decoded for every knob at once. */
  function ReadingOf(frag: string): (r: Reading)
    ensures forall k :: r.At(k) == Decode(k, frag)
  {
    Reading(Decode(FA, frag), Decode(ZZIS, frag), Decode(ZZLA, frag))
  }

  /** The three tags are prefix-disjoint: a fragment is about one knob at most. */
  lemma TagsExclusive(frag: string, j: Knob, k: Knob)
    requires StartsWith(frag, FieldOf(j).tag) && StartsWith(frag, FieldOf(k).tag)
    ensures j == k
  {
    var a, b := FieldOf(j).tag, FieldOf(k).tag;
    assert frag[0] == a[0] == b[0];
    if |a| == 4 && |b| == 4 {
      assert frag[2] == a[2] == b[2];
    }
  }

  /** A chunk made of one rendered command is exactly one fragment: the
      command without its terminator. */
  lemma FragmentsOfRender(c: Command)
    ensures Fragments(Render(c)) == [Body(c)]
  {
    var b := Body(c);
    assert !IsWhitespace(b[0]);
    FragmentsOfTerminated(b);
  }

  /** A `;`-free text that does not start with whitespace, followed by `;`,
      is one fragment. */
  lemma FragmentsOfTerminated(b: string)
    requires |b| >= 1 && !IsWhitespace(b[0]) && ';' !in b
    ensures Fragments(b + ";") == [b]
  {
    var s := b + ";";
    assert s[0] == b[0] && s[|s| - 1] == ';';
    assert Trim(s) == s;
    assert s == b + [';'] + [];
    SplitAppend(b, [], ';');
    SplitFree(b, ';');
    assert Split(s, ';') == [b, []];
    assert NonEmpty([b, []]) == [b] + NonEmpty([[]]);
  }

  /** A separator-free string splits into itself. */
  lemma {:induction false} SplitFree(s: string, sep: char)
    requires sep !in s
    ensures Split(s, sep) == [s]
    decreases |s|
  {
    if |s| > 0 {
      assert sep !in s[1..];
      SplitFree(s[1..], sep);
    }
  }

  /** Round trip: a write of `0 <= v < 10^width` arrives as one fragment that
      decodes to `v` for its own knob and to nothing for the others. */
  lemma DecodeRenderWrite(k: Knob, v: int)
    requires 0 <= v < Pow10(FieldOf(k).width)
    ensures Fragments(Render(Write(k, v))) == [FieldOf(k).tag + Payload(k, v)]
    ensures Decode(k, FieldOf(k).tag + Payload(k, v)) == Some(v)
    ensures forall j :: j != k ==> Decode(j, FieldOf(k).tag + Payload(k, v)) == None
  {
    FragmentsOfRender(Write(k, v));
    DecodeOwnWrite(k, v);
    forall j | j != k
      ensures Decode(j, FieldOf(k).tag + Payload(k, v)) == None
    {
      DecodeOtherTag(j, k, Payload(k, v));
    }
  }

  /** A payload of exactly the knob's width parses back to the value. */
  lemma DecodeOwnWrite(k: Knob, v: int)
    requires 0 <= v < Pow10(FieldOf(k).width)
    ensures Decode(k, FieldOf(k).tag + Payload(k, v)) == Some(v)
  {
    var f := FieldOf(k);
    var p := Payload(k, v);
    var frag := f.tag + p;
    assert frag[..|f.tag|] == f.tag;
    assert Substring(frag, f.start, |f.tag| + f.width) == p;
    ParseIntPadded(v, f.width);
  }

  /** A fragment that starts with another knob's tag is not about `j`. */
  lemma DecodeOtherTag(j: Knob, k: Knob, rest: string)
    requires j != k
    ensures Decode(j, FieldOf(k).tag + rest) == None
  {
    var frag := FieldOf(k).tag + rest;
    assert frag[..|FieldOf(k).tag|] == FieldOf(k).tag;
    if StartsWith(frag, FieldOf(j).tag) {
      TagsExclusive(frag, j, k);
    }
  }

  /** `ZZLA` reads to the end of the fragment, so its round trip holds for
      every non-negative value, however many digits it has. */
  lemma DecodeLevelAnyWidth(v: nat)
    ensures Decode(ZZLA, "ZZLA" + Payload(ZZLA, v)) == Some(v)
  {
    var p := Payload(ZZLA, v);
    var frag := "ZZLA" + p;
    assert frag[..4] == "ZZLA";
    assert Substring(frag, 4, |frag|) == p;
    ParseIntPadded(v, 3);
  }

  /** `FA` reads only the eleven characters after the tag, so a frequency of
      10^11 Hz or more is written with a payload its own decoder reads back as
      a different, smaller number. */
  lemma FrequencyBeyondWidth(v: int)
    requires v >= Pow10(11)
    ensures Decode(FA, "FA" + Payload(FA, v)).Some?
    ensures Decode(FA, "FA" + Payload(FA, v)).value < v
  {
    var d := NatToDecimal(v);
    NatToDecimalLength(v, 11);
    assert Payload(FA, v) == d;
    DecodeFrequencyPrefix(d);
    DecimalValue(v);
    ElevenDigits(d);
  }

  /** The `FA` branch parses the first eleven characters after the tag. */
  lemma DecodeFrequencyPrefix(p: string)
    requires |p| >= 11
    ensures Decode(FA, "FA" + p) == ParseInt(p[..11])
  {
    var frag := "FA" + p;
    assert frag[..2] == "FA";
    assert Substring(frag, 2, 13) == p[..11];
  }

  /** The first eleven of a run of decimal digits are worth less than 10^11. */
  lemma ElevenDigits(d: string)
    requires |d| >= 11 && AllRadixDigits(d, 10)
    ensures ParseInt(d[..11]).Some? && ParseInt(d[..11]).value < Pow10(11)
  {
    var z := d[..11];
    assert AllRadixDigits(z, 10);
    DigitRunParses(z);
    DigitsValueBound(z);
  }

  /** A tagged fragment whose payload substring has no leading digit
      carries no number for any knob. */
  lemma DecodeMalformed(k: Knob, frag: string)
    requires StartsWith(frag, FieldOf(k).tag)
    requires var f := FieldOf(k);
             NoLeadingDigit(Substring(frag, f.start, if f.end.Some? then f.end.value else |frag|))
    ensures forall j :: Decode(j, frag) == None
  {
    var f := FieldOf(k);
    ParseIntNoLeadingDigit(Substring(frag, f.start, if f.end.Some? then f.end.value else |frag|));
    forall j | j != k
      ensures Decode(j, frag) == None
    {
      if StartsWith(frag, FieldOf(j).tag) {
        TagsExclusive(frag, j, k);
      }
    }
  }

  /** A read request echoed back carries no value: it updates nothing. */
  lemma DecodeReadRequest(j: Knob, k: Knob)
    ensures Decode(j, FieldOf(k).tag) == None
  {
    var frag := FieldOf(k).tag;
    if StartsWith(frag, FieldOf(j).tag) {
      TagsExclusive(frag, j, k);
      assert Substring(frag, FieldOf(k).start, |frag|) == [];
    }
  }
}

=== FILE: engine.dfy ===
/** The synchronisation engine as one immutable state record and pure step
    functions: inbound chunks, key intents, and the socket's lifecycle
    (tcp-macro.js). Every step returns the new state and the commands handed
    to the socket, in order. */
module Engine {
  import opened Wrappers
  import opened JsText
  import opened Codec
  import opened Reconcile

  /** The module-level variables of the client. */
  datatype State = State(
    fa: Param,             // currentFreq / pendingStep
    zzis: Param,           // currentIS / pendingISStep
    zzla: Param,           // currentLA / pendingLAStep
    stepSize: int,         // frequency step in Hz
    stepToggleLock: bool,  // set by a step toggle, cleared when F1 is released
    muteState: bool,
    pttState: bool,
    live: bool,            // a socket exists and is not destroyed
    retryScheduled: bool)  // a reconnect timer is outstanding

  /** The state right after start-up: the defaults, and the first socket
      already created by the initial connect. */
  const Initial: State :=
    State(Param(14200000, 0), Param(3000, 0), Param(50, 0), 1000, false, false, false, true, false)

  function Get(s: State, k: Knob): Param {
    match k
    case FA => s.fa
    case ZZIS => s.zzis
    case ZZLA => s.zzla
  }

  /** Replaces one knob's parameter and nothing else. */
  function Put(s: State, k: Knob, p: Param): (t: State)
    ensures Get(t, k) == p
    ensures forall j :: j != k ==> Get(t, j) == Get(s, j)
    ensures t.(fa := s.fa, zzis := s.zzis, zzla := s.zzla) == s
  {
    match k
    case FA => s.(fa := p)
    case ZZIS => s.(zzis := p)
    case ZZLA => s.(zzla := p)
  }

  /** A new state and the commands handed to the socket on the way there. */
  datatype Step = Step(state: State, sent: seq<Command>)

  /** `sendCAT`: the command reaches the socket only while one exists and is
      not destroyed; otherwise it is dropped, not queued. */
  function Send(s: State, c: Command): (out: seq<Command>)
    ensures s.live ==> out == [c]
    ensures !s.live ==> out == []
  {
    if s.live then [c] else []
  }

  /** The text the socket receives for a sequence of commands. */
  function Wire(cmds: seq<Command>): (w: seq<string>)
    ensures |w| == |cmds|
    ensures forall i :: 0 <= i < |cmds| ==> w[i] == Render(cmds[i])
  {
    seq(|cmds|, i requires 0 <= i < |cmds| => Render(cmds[i]))
  }

  // ----- Inbound data -----

  /** One knob's branch of the inbound handler, given what the fragment
      decodes to for that knob: nothing happens on NaN or a foreign tag. */
  function OnReport(s: State, k: Knob, n: Option<int>): (r: Step)
    ensures n.None? ==> r == Step(s, [])
    ensures n.Some? ==> Get(r.state, k).pending == 0
    ensures r.sent == [] || (s.live && Get(s, k).pending != 0 && r.sent == [Write(k, Get(r.state, k).current)])
  {
    match n
    case None => Step(s, [])
    case Some(c) =>
      var r := Report(k, Get(s, k), c);
      Step(Put(s, k, r.param), if r.write.Some? then Send(s, r.write.value) else [])
  }

  /** The `FA`, `ZZIS` and `ZZLA` branches in turn, on what a fragment
      decodes to for each. */
  function OnReading(s: State, r: Reading): Step
  {
    var a := OnReport(s, FA, r.fa);
    var b := OnReport(a.state, ZZIS, r.zzis);
    var c := OnReport(b.state, ZZLA, r.zzla);
    Step(c.state, a.sent + b.sent + c.sent)
  }

  /** One fragment of an inbound chunk. */
  function OnFragment(s: State, frag: string): Step
  {
    OnReading(s, ReadingOf(frag))
  }

  /** Applies a step function to each item in turn, threading the state and
      collecting everything sent, in order: each item's commands go out
      before the next item is looked at. */
  function Fold<E>(step: (State, E) -> Step, s: State, items: seq<E>): Step
    decreases |items|
  {
    if |items| == 0 then Step(s, [])
    else
      var a := step(s, items[0]);
      var b := Fold(step, a.state, items[1..]);
      Step(b.state, a.sent + b.sent)
  }

  /** The socket's `data` handler: the fragments of a chunk, in arrival
      order. A chunk of whitespace alone does nothing, and a chunk holding a
      single fragment is handled as that fragment. */
  function OnChunk(s: State, chunk: string): (r: Step)
    ensures Trim(chunk) == [] ==> r == Step(s, [])
    ensures |Fragments(chunk)| == 1 ==> r == OnFragment(s, Fragments(chunk)[0])
  {
    var frags := Fragments(chunk);
    assert |frags| == 1 ==> var a := OnFragment(s, frags[0]);
      frags[1..] == [] && Fold(OnFragment, a.state, frags[1..]) == Step(a.state, [])
      && a.sent + [] == a.sent;
    Fold(OnFragment, s, frags)
  }

  // ----- Local intents -----

  /** What a key press asks for, once the keyboard layer has decided whether
      Ctrl+Alt is held. */
  datatype Intent =
    | Nudge(knob: Knob, up: bool)  // a relative step on one knob
    | ResetShift                   // ZZIS back to 3000
    | ToggleMute
    | BandStep(up: bool)
    | TogglePtt

  /** The key map. The source tests each key name in its own `if`; the
      names are distinct, so at most one of them fires per event. Only a
      press fires; a nudge or the `ZZIS` reset needs Ctrl+Alt, and without
      it only the mute, band and PTT keys act. */
  function KeyIntent(key: string, down: bool, ctrlAlt: bool): (r: Option<Intent>)
    ensures r.Some? ==> down
    ensures r.Some? && (r.value.Nudge? || r.value.ResetShift?) ==> ctrlAlt
    ensures r == Some(ResetShift) <==> down && ctrlAlt && key == "F2"
    ensures !ctrlAlt && r.Some? ==> key in ["F16", "F21", "F22", "F23", "F24"]
  {
    if !down then None
    else if ctrlAlt && (key == "UP" || key == "UP ARROW") then Some(Nudge(FA, true))
    else if ctrlAlt && (key == "DOWN" || key == "DOWN ARROW") then Some(Nudge(FA, false))
    else if ctrlAlt && key == "PAGE UP" then Some(Nudge(ZZIS, true))
    else if ctrlAlt && key == "PAGE DOWN" then Some(Nudge(ZZIS, false))
    else if ctrlAlt && key == "F2" then Some(ResetShift)
    else if ctrlAlt && key == "HOME" then Some(Nudge(ZZLA, true))
    else if ctrlAlt && key == "END" then Some(Nudge(ZZLA, false))
    else if ctrlAlt && key == "F3" then Some(ToggleMute)
    else if key == "F16" then Some(ToggleMute)
    else if key == "F22" then Some(BandStep(false))
    else if key == "F23" then Some(BandStep(true))
    else if key == "F24" || key == "F21" then Some(TogglePtt)
    else None
  }

  /** The size of one step: the current `stepSize` for the frequency, 100
      for `ZZIS`, 5 for `ZZLA`, negated for a step down. */
  function StepDelta(s: State, k: Knob, up: bool): int
  {
    var size := match k
      case FA => s.stepSize
      case ZZIS => 100
      case ZZLA => 5;
    if up then size else -size
  }

  /** One intent: a nudge queues its step on its own knob, leaving the
      other knobs alone, and asks for the value without changing it; the
      reset, mute and PTT intents set their value; every intent issues
      exactly one command, which is dropped while the link is down. Nothing
      but the parameters and the two toggles changes. */
  function OnIntent(s: State, i: Intent): (r: Step)
    ensures |r.sent| == (if s.live then 1 else 0)
    ensures i.Nudge? ==> Get(r.state, i.knob).current == Get(s, i.knob).current
    ensures i.Nudge? ==> Get(r.state, i.knob).pending == StepDelta(s, i.knob, i.up)
    ensures i.Nudge? ==> forall j :: j != i.knob ==> Get(r.state, j) == Get(s, j)
    ensures i.Nudge? ==> r.sent == [] || r.sent == [Read(i.knob)]
    ensures r.state.(fa := s.fa, zzis := s.zzis, zzla := s.zzla, muteState := s.muteState, pttState := s.pttState) == s
  {
    match i
    case Nudge(k, up) => Step(Put(s, k, Queue(Get(s, k), StepDelta(s, k, up))), Send(s, Read(k)))
    case ResetShift => Step(s.(zzis := s.zzis.(current := 3000)), Send(s, Write(ZZIS, 3000)))
    case ToggleMute => Step(s.(muteState := !s.muteState), Send(s, Mute(!s.muteState)))
    case BandStep(up) => Step(s, Send(s, Band(up)))
    case TogglePtt => Step(s.(pttState := !s.pttState), Send(s, Ptt(!s.pttState)))
  }

  /** The step-size toggle: Ctrl+Alt+F1 switches between 100 and 1000 Hz at
      most once until F1 is released. A press without Ctrl+Alt, or while
      the lock is set, changes nothing; releasing F1 only clears the lock. */
  function ToggleStep(s: State, key: string, down: bool, ctrlAlt: bool): (t: State)
    ensures t.(stepSize := s.stepSize, stepToggleLock := s.stepToggleLock) == s
    ensures key != "F1" ==> t == s
    ensures down && (!ctrlAlt || s.stepToggleLock) ==> t == s
    ensures down && key == "F1" && ctrlAlt && !s.stepToggleLock
            ==> t.stepSize == (if s.stepSize == 100 then 1000 else 100) && t.stepToggleLock
    ensures !down && key == "F1" ==> t == s.(stepToggleLock := false)
  {
    if down && key == "F1" && ctrlAlt && !s.stepToggleLock then
      s.(stepSize := if s.stepSize == 100 then 1000 else 100, stepToggleLock := true)
    else if !down && key == "F1" then
      s.(stepToggleLock := false)
    else s
  }

  /** The keyboard listener: the step toggle, then at most one intent. A
      key event sends at most one command, a release sends none, and the
      link is never touched. */
  function OnKey(s: State, key: string, down: bool, ctrlAlt: bool): (r: Step)
    ensures |r.sent| <= 1
    ensures !down ==> r.sent == []
    ensures r.state.live == s.live && r.state.retryScheduled == s.retryScheduled
  {
    var t := ToggleStep(s, key, down, ctrlAlt);
    match KeyIntent(key, down, ctrlAlt)
    case None => Step(t, [])
    case Some(i) => OnIntent(t, i)
  }

  // ----- Connection lifecycle -----

  /** The connect callback: ask for every tracked value, in a fixed order,
      without touching any state. */
  function OnConnected(s: State): (r: Step)
    ensures r.state == s
    ensures s.live ==> r.sent == [Read(FA), Read(ZZIS), Read(ZZLA)]
    ensures !s.live ==> r.sent == []
  {
    Step(s, Send(s, Read(FA)) + Send(s, Read(ZZIS)) + Send(s, Read(ZZLA)))
  }

  /** The `close` handler: the socket is gone and one reconnect is scheduled;
      no parameter is touched. */
  function OnClosed(s: State): (r: Step)
    ensures !r.state.live && r.state.retryScheduled
    ensures r.state.(live := s.live, retryScheduled := s.retryScheduled) == s
    ensures r.sent == []
  {
    Step(s.(live := false, retryScheduled := true), [])
  }

  /** The reconnect timer firing: a fresh socket is created when a
      reconnect was scheduled, and the timer is spent. */
  function OnRetry(s: State): (r: Step)
    ensures r.state.live == (s.live || s.retryScheduled)
    ensures !r.state.retryScheduled
    ensures r.state.(live := s.live, retryScheduled := s.retryScheduled) == s
    ensures r.sent == []
  {
    if s.retryScheduled then Step(s.(live := true, retryScheduled := false), [])
    else Step(s, [])
  }

  datatype Event =
    | Data(chunk: string)
    | Key(name: string, down: bool, ctrlAlt: bool)
    | Connected
    | Closed
    | RetryFired

  /** One event. Only data and keys change a parameter, a close takes the
      link down, and a key release sends nothing. */
  function Next(s: State, e: Event): (r: Step)
    ensures !e.Data? && !e.Key? ==> r.state.fa == s.fa && r.state.zzis == s.zzis && r.state.zzla == s.zzla
    ensures e.Closed? ==> !r.state.live
    ensures e.Key? && !e.down ==> r.sent == []
  {
    match e
    case Data(chunk) => OnChunk(s, chunk)
    case Key(name, down, ctrlAlt) => OnKey(s, name, down, ctrlAlt)
    case Connected => OnConnected(s)
    case Closed => OnClosed(s)
    case RetryFired => OnRetry(s)
  }

  /** A run of events, one after the other, collecting everything sent. */
  function Run(s: State, events: seq<Event>): Step
  {
    Fold(Next, s, events)
  }
}

=== FILE: jsnumber.dfy ===
/** JavaScript's global `parseInt(string)` with no radix argument, returning
    `None` where JavaScript returns NaN. */
module JsNumber {
  import opened Wrappers
  import opened JsText

  /** The value of an alphanumeric character as a digit of radix up to 36. */
  function DigitValue(c: char): (v: Option<nat>)
    ensures v.Some? ==> v.value < 36
    ensures IsDecimalDigit(c) <==> v.Some? && v.value < 10
  {
    if '0' <= c <= '9' then Some(c as int - '0' as int)
    else if 'a' <= c <= 'z' then Some(c as int - 'a' as int + 10)
    else if 'A' <= c <= 'Z' then Some(c as int - 'A' as int + 10)
    else None
  }

  predicate IsRadixDigit(c: char, radix: nat) {
    DigitValue(c).Some? && DigitValue(c).value < radix
  }

  predicate AllRadixDigits(z: string, radix: nat) {
    forall i :: 0 <= i < |z| ==> IsRadixDigit(z[i], radix)
  }

  /** The longest prefix of `s` made of radix digits. */
  function DigitRun(s: string, radix: nat): (z: string)
    ensures z <= s
    ensures AllRadixDigits(z, radix)
    ensures |z| < |s| ==> !IsRadixDigit(s[|z|], radix)
    decreases |s|
  {
    if |s| == 0 || !IsRadixDigit(s[0], radix) then []
    else
      var z := [s[0]] + DigitRun(s[1..], radix);
      assert s == [s[0]] + s[1..];
      z
  }

  /** The number a run of digits denotes, most significant first. */
  function DigitsValue(z: string, radix: nat): nat
    requires AllRadixDigits(z, radix)
    decreases |z|
  {
    if |z| == 0 then 0
    else DigitsValue(z[..|z| - 1], radix) * radix + DigitValue(z[|z| - 1]).value
  }

  /** The input with one leading `+` or `-` removed, if it has one. */
  function StripSign(t: string): (u: string)
    ensures u == t || (|t| > 0 && (t[0] == '+' || t[0] == '-') && u == t[1..])
  {
    if |t| > 0 && (t[0] == '+' || t[0] == '-') then t[1..] else t
  }

  predicate HasHexPrefix(u: string) {
    |u| >= 2 && u[0] == '0' && (u[1] == 'x' || u[1] == 'X')
  }

  /** The unsigned part of `parseInt`: strip a `0x`/`0X` prefix (switching to
      radix 16), then read the longest run of digits; no digit at all is NaN. */
  function Magnitude(u: string): (r: Option<nat>)
    ensures u == [] || !IsDecimalDigit(u[0]) ==> r.None?
  {
    var radix := if HasHexPrefix(u) then 16 else 10;
    var z := DigitRun(if HasHexPrefix(u) then u[2..] else u, radix);
    if |z| == 0 then None else Some(DigitsValue(z, radix))
  }

  /** `parseInt(s)`: skip leading whitespace, take an optional sign, then read
      the magnitude. Negative zero is the integer 0. */
  function ParseInt(s: string): (r: Option<int>)
    ensures TrimStart(s) == [] ==> r.None?
    ensures var t := TrimStart(s);
            t != [] && t[0] != '+' && t[0] != '-' && !IsDecimalDigit(t[0]) ==> r.None?
    ensures r.Some? && r.value < 0 ==> TrimStart(s) != [] && TrimStart(s)[0] == '-'
  {
    var t := TrimStart(s);
    match Magnitude(StripSign(t))
    case None => None
    case Some(m) =>
      var magnitude: int := m;
      Some(if |t| > 0 && t[0] == '-' then -magnitude else magnitude)
  }

  /** A run of `n` decimal digits is worth less than 10^n. */
  lemma {:induction false} DigitsValueBound(z: string)
    requires AllRadixDigits(z, 10)
    ensures DigitsValue(z, 10) < Pow10(|z|)
    decreases |z|
  {
    if |z| > 0 {
      DigitsValueBound(z[..|z| - 1]);
    }
  }

  /** A complete run of decimal digits is read in radix 10 as its value. */
  lemma MagnitudeOfDigits(z: string)
    requires |z| >= 1 && AllRadixDigits(z, 10)
    ensures Magnitude(z) == Some(DigitsValue(z, 10))
  {
    if |z| >= 2 {
      assert !(z[1] == 'x' || z[1] == 'X') by { assert IsRadixDigit(z[1], 10); }
    }
    assert !HasHexPrefix(z);
    DigitRunWhole(z, 10);
  }

  /** The digits of `NatToDecimal(n)` read back as `n`. */
  lemma {:induction false} DecimalValue(n: nat)
    ensures AllRadixDigits(NatToDecimal(n), 10)
    ensures DigitsValue(NatToDecimal(n), 10) == n
    decreases n
  {
    var r := NatToDecimal(n);
    assert AllRadixDigits(r, 10) by {
      forall i | 0 <= i < |r| ensures IsRadixDigit(r[i], 10) {
        assert IsDecimalDigit(r[i]);
      }
    }
    if n >= 10 {
      DecimalValue(n / 10);
      assert r[..|r| - 1] == NatToDecimal(n / 10);
    }
  }

  /** Leading zeros do not change the value of a digit run. */
  lemma {:induction false} LeadingZerosValue(k: nat, z: string)
    requires AllRadixDigits(z, 10)
    ensures AllRadixDigits(seq(k, _ => '0') + z, 10)
    ensures DigitsValue(seq(k, _ => '0') + z, 10) == DigitsValue(z, 10)
    decreases |z|
  {
    var zs := seq(k, _ => '0');
    var s := zs + z;
    assert AllRadixDigits(s, 10) by {
      forall i | 0 <= i < |s| ensures IsRadixDigit(s[i], 10) {
        if i < k { assert s[i] == '0'; } else { assert s[i] == z[i - k]; }
      }
    }
    if |z| == 0 {
      assert s == zs;
      AllZerosValue(k);
    } else {
      assert s[..|s| - 1] == zs + z[..|z| - 1];
      assert s[|s| - 1] == z[|z| - 1];
      LeadingZerosValue(k, z[..|z| - 1]);
    }
  }

  /** A run of zeros is worth nothing. */
  lemma {:induction false} AllZerosValue(k: nat)
    ensures AllRadixDigits(seq(k, _ => '0'), 10)
    ensures DigitsValue(seq(k, _ => '0'), 10) == 0
    decreases k
  {
    if k > 0 {
      assert seq(k, _ => '0')[..k - 1] == seq(k - 1, _ => '0');
      AllZerosValue(k - 1);
    }
  }

  /** A complete run of decimal digits parses to its value: the general fact
      behind every round trip below. */
  lemma DigitRunParses(z: string)
    requires |z| >= 1 && AllRadixDigits(z, 10)
    ensures ParseInt(z) == Some(DigitsValue(z, 10))
  {
    assert IsDecimalDigit(z[0]) by { assert IsRadixDigit(z[0], 10); }
    assert TrimStart(z) == z;
    assert StripSign(z) == z;
    MagnitudeOfDigits(z);
  }

  /** A string made only of radix digits is its own longest digit run. */
  lemma {:induction false} DigitRunWhole(z: string, radix: nat)
    requires AllRadixDigits(z, radix)
    ensures DigitRun(z, radix) == z
    decreases |z|
  {
    if |z| > 0 {
      DigitRunWhole(z[1..], radix);
    }
  }

  /** `parseInt(n.toString()) == n` for every integer `n`. */
  lemma ParseIntToString(n: int)
    ensures ParseInt(IntToString(n)) == Some(n)
  {
    var m: nat := if n < 0 then -n else n;
    var d := NatToDecimal(m);
    DecimalValue(m);
    if n >= 0 {
      DigitRunParses(d);
    } else {
      var s := IntToString(n);
      assert s == "-" + d;
      assert TrimStart(s) == s;
      assert StripSign(s) == d;
      MagnitudeOfDigits(d);
    }
  }

  /** A non-negative value zero-padded to any width parses back to itself. */
  lemma ParseIntPadded(v: nat, width: nat)
    ensures ParseInt(PadStart(IntToString(v), width, '0')) == Some(v)
  {
    var d := NatToDecimal(v);
    DecimalValue(v);
    var p := PadStart(d, width, '0');
    var k := |p| - |d|;
    assert p == seq(k, _ => '0') + d;
    LeadingZerosValue(k, d);
    DigitRunParses(p);
  }

  /** `parseInt` skips leading whitespace, takes an optional sign, and reads
      the longest run of decimal digits, ignoring whatever follows it; only
      a `0x`/`0X` prefix would switch the radix. */
  lemma {:induction false} ParseIntReadsLeadingRun(w: string, sign: string, z: string, rest: string)
    requires AllWhitespace(w)
    requires sign == "" || sign == "+" || sign == "-"
    requires |z| >= 1 && AllRadixDigits(z, 10)
    requires rest == [] || !IsDecimalDigit(rest[0])
    requires !HasHexPrefix(z + rest)
    ensures sign != "-" ==> ParseInt(w + (sign + (z + rest))) == Some(DigitsValue(z, 10) as int)
    ensures sign == "-" ==> ParseInt(w + (sign + (z + rest))) == Some(-(DigitsValue(z, 10) as int))
  {
    var t := sign + (z + rest);
    SignedRunStart(sign, z, rest);
    TrimStartSkips(w, t);
    MagnitudeOfRun(z, rest);
    ParseIntAfterWhitespace(w + t, t, z + rest, DigitsValue(z, 10));
  }

  /** `parseInt` on text whose whitespace-free start `t` carries magnitude
      `m` after its sign: `m`, negated when the sign is `-`. */
  lemma ParseIntAfterWhitespace(s: string, t: string, u: string, m: nat)
    requires TrimStart(s) == t && StripSign(t) == u && Magnitude(u) == Some(m)
    ensures |t| > 0 && t[0] == '-' ==> ParseInt(s) == Some(-(m as int))
    ensures !(|t| > 0 && t[0] == '-') ==> ParseInt(s) == Some(m as int)
  {
  }

  /** A signed digit run does not start with whitespace, and `StripSign`
      removes exactly the sign. */
  lemma SignedRunStart(sign: string, z: string, rest: string)
    requires sign == "" || sign == "+" || sign == "-"
    requires |z| >= 1 && AllRadixDigits(z, 10)
    ensures var t := sign + (z + rest);
            !IsWhitespace(t[0]) && StripSign(t) == z + rest
            && (t[0] == '-' <==> sign == "-")
  {
    var t := sign + (z + rest);
    assert IsRadixDigit(z[0], 10);
    if sign == "" {
      assert t == z + rest && t[0] == z[0];
    } else {
      assert t[0] == sign[0] && t[1..] == z + rest;
    }
  }

  /** A digit run followed by anything but a digit, with no hex prefix, is
      read in radix 10 as the run's value. */
  lemma MagnitudeOfRun(z: string, rest: string)
    requires |z| >= 1 && AllRadixDigits(z, 10)
    requires rest == [] || !IsDecimalDigit(rest[0])
    requires !HasHexPrefix(z + rest)
    ensures Magnitude(z + rest) == Some(DigitsValue(z, 10))
  {
    assert rest == [] || !IsRadixDigit(rest[0], 10);
    DigitRunPrefix(z, rest, 10);
  }

  /** Leading whitespace is exactly what `TrimStart` drops. */
  lemma {:induction false} TrimStartSkips(w: string, t: string)
    requires AllWhitespace(w)
    requires t == [] || !IsWhitespace(t[0])
    ensures TrimStart(w + t) == t
    decreases |w|
  {
    if |w| == 0 {
      assert w + t == t;
    } else {
      assert (w + t)[0] == w[0] && IsWhitespace(w[0]);
      assert (w + t)[1..] == w[1..] + t;
      assert AllWhitespace(w[1..]) by {
        forall i | 0 <= i < |w[1..]| ensures IsWhitespace(w[1..][i]) {
          assert w[1..][i] == w[i + 1];
        }
      }
      TrimStartSkips(w[1..], t);
    }
  }

  /** A digit run followed by a non-digit is the longest digit run. */
  lemma {:induction false} DigitRunPrefix(z: string, rest: string, radix: nat)
    requires AllRadixDigits(z, radix)
    requires rest == [] || !IsRadixDigit(rest[0], radix)
    ensures DigitRun(z + rest, radix) == z
    decreases |z|
  {
    if |z| == 0 {
      assert z + rest == rest;
    } else {
      assert (z + rest)[0] == z[0];
      assert (z + rest)[1..] == z[1..] + rest;
      DigitRunPrefix(z[1..], rest, radix);
      assert z == [z[0]] + z[1..];
    }
  }

  /** A `0x` prefix switches to radix 16, after whitespace and a sign:
      `parseInt(" -0x1A")` is -26. */
  lemma ParseIntHex()
    ensures ParseInt(" -0x1A") == Some(-26)
  {
    assert " " + "-0x1A" == " -0x1A";
    assert AllWhitespace(" ") by { assert IsWhitespace(' '); }
    TrimStartSkips(" ", "-0x1A");
    assert StripSign("-0x1A") == "0x1A";
    HexMagnitude();
    ParseIntAfterWhitespace(" -0x1A", "-0x1A", "0x1A", 26);
  }

  /** `0x1A` is read in radix 16 as 26. */
  lemma HexMagnitude()
    ensures Magnitude("0x1A") == Some(26)
  {
    assert HasHexPrefix("0x1A");
    assert "0x1A"[2..] == "1A";
    assert DigitRun("1A", 16) == "1A" by {
      assert "1A"[1..] == "A" && "A"[1..] == [];
    }
    assert DigitsValue("1A", 16) == 26 by {
      assert "1A"[..1] == "1" && "1"[..0] == [];
    }
  }

  /** After whitespace and an optional sign there is no decimal digit. */
  predicate NoLeadingDigit(s: string) {
    var u := StripSign(TrimStart(s));
    u == [] || !IsDecimalDigit(u[0])
  }

  /** A payload with no leading digit is NaN. */
  lemma ParseIntNoLeadingDigit(s: string)
    requires NoLeadingDigit(s)
    ensures ParseInt(s) == None
  {
  }
}

=== FILE: jstext.dfy ===
/** The JavaScript string built-ins the CAT engine relies on, stated over
    `string`. A Dafny `char` is a Unicode scalar value, while JavaScript
    indexes UTF-16 code units; every character that `trim`, `split` and
    `parseInt` react to lies in the Basic Multilingual Plane, so positions
    agree up to the first character outside it. The built-ins are:
    `trim`, `split` with a one-character separator, `filter(c => c.length > 0)`,
    `startsWith`, `substring`, `padStart` and `Number.prototype.toString`
    for integers. */
module JsText {

  /** The ECMAScript WhiteSpace and LineTerminator code points: the set that
      `String.prototype.trim` removes and `parseInt` skips. */
  predicate IsWhitespace(c: char) {
    || c == '\t' || c == '\n' || c == '\U{B}' || c == '\U{C}' || c == '\r'
    || c == ' ' || c == '\U{A0}' || c == '\U{1680}'
    || ('\U{2000}' <= c <= '\U{200A}')
    || c == '\U{2028}' || c == '\U{2029}' || c == '\U{202F}' || c == '\U{205F}'
    || c == '\U{3000}' || c == '\U{FEFF}'
  }

  /** A string made of whitespace alone. */
  predicate AllWhitespace(w: string) {
    forall i :: 0 <= i < |w| ==> IsWhitespace(w[i])
  }

  /** A string with no whitespace at either end. */
  predicate IsTrimmed(s: string) {
    s == [] || (!IsWhitespace(s[0]) && !IsWhitespace(s[|s| - 1]))
  }

  /** Drops the leading whitespace: the result is the suffix of `s` that
      starts at the first non-whitespace character. */
  function TrimStart(s: string): (r: string)
    ensures |r| <= |s| && r == s[|s| - |r|..]
    ensures forall i :: 0 <= i < |s| - |r| ==> IsWhitespace(s[i])
    ensures r == [] || !IsWhitespace(r[0])
    decreases |s|
  {
    if |s| > 0 && IsWhitespace(s[0]) then TrimStart(s[1..]) else s
  }

  /** Drops the trailing whitespace: the result is the prefix of `s` that
      ends at the last non-whitespace character. */
  function TrimEnd(s: string): (r: string)
    ensures |r| <= |s| && r == s[..|r|]
    ensures forall i :: |r| <= i < |s| ==> IsWhitespace(s[i])
    ensures r == [] || !IsWhitespace(r[|r| - 1])
    decreases |s|
  {
    if |s| > 0 && IsWhitespace(s[|s| - 1]) then TrimEnd(s[..|s| - 1]) else s
  }

  /** `String.prototype.trim`: the result is the slice of `s` left once the
      whitespace at both ends is removed; nothing inside it is touched, it
      has no whitespace at either end, and a string that has none is left as
      it is. */
  function Trim(s: string): (r: string)
    ensures |r| <= |s|
    ensures exists i, j :: 0 <= i <= j <= |s| && r == s[i..j]
                           && (forall k :: 0 <= k < i ==> IsWhitespace(s[k]))
                           && (forall k :: j <= k < |s| ==> IsWhitespace(s[k]))
    ensures IsTrimmed(r)
    ensures IsTrimmed(s) ==> r == s
  {
    var t := TrimStart(s);
    var r := TrimEnd(t);
    assert r != [] ==> r[0] == t[0];
    TrimSlice(s, |s| - |t|, t, r);
    r
  }

  /** The slice `Trim` keeps: whitespace before `start` from `TrimStart`,
      and whitespace after `start + |r|` from `TrimEnd`. */
  lemma TrimSlice(s: string, start: nat, t: string, r: string)
    requires start <= |s| && t == s[start..]
    requires forall k :: 0 <= k < start ==> IsWhitespace(s[k])
    requires |r| <= |t| && r == t[..|r|]
    requires forall k :: |r| <= k < |t| ==> IsWhitespace(t[k])
    ensures exists i, j :: 0 <= i <= j <= |s| && r == s[i..j]
                           && (forall k :: 0 <= k < i ==> IsWhitespace(s[k]))
                           && (forall k :: j <= k < |s| ==> IsWhitespace(s[k]))
  {
    var j := start + |r|;
    assert r == s[start..j];
    forall k | j <= k < |s| ensures IsWhitespace(s[k]) {
      assert s[k] == t[k - start];
    }
  }

  /** Joins at least one part, putting `sep` between neighbours: the inverse
      of `Split`. */
  function Join(parts: seq<string>, sep: char): string
    requires |parts| >= 1
    decreases |parts|
  {
    if |parts| == 1 then parts[0] else parts[0] + [sep] + Join(parts[1..], sep)
  }

  /** `String.prototype.split` with a one-character separator: the maximal
      separator-free pieces of `s`, in order, including the empty pieces
      before, between and after separators (so `""` splits into `[""]`). */
  function Split(s: string, sep: char): (parts: seq<string>)
    ensures |parts| >= 1
    ensures forall i :: 0 <= i < |parts| ==> sep !in parts[i]
    ensures Join(parts, sep) == s
    decreases |s|
  {
    if |s| == 0 then [""]
    else
      var rest := Split(s[1..], sep);
      if s[0] == sep then
        [""] + rest
      else
        var parts := [[s[0]] + rest[0]] + rest[1..];
        assert parts[1..] == rest[1..];
        assert s == [s[0]] + s[1..];
        parts
  }

  /** Splitting around one separator splits each side on its own. */
  lemma {:induction false} SplitAppend(a: string, b: string, sep: char)
    ensures Split(a + [sep] + b, sep) == Split(a, sep) + Split(b, sep)
    decreases |a|
  {
    if |a| == 0 {
      assert a + [sep] + b == [sep] + b;
      assert ([sep] + b)[1..] == b;
    } else {
      var s := a + [sep] + b;
      assert s[0] == a[0];
      assert s[1..] == a[1..] + [sep] + b;
      SplitAppend(a[1..], b, sep);
    }
  }

  /** `filter(c => c.length > 0)`: the non-empty parts, in their order. */
  function NonEmpty(parts: seq<string>): (r: seq<string>)
    ensures |r| <= |parts|
    ensures forall i :: 0 <= i < |r| ==> |r[i]| > 0
    decreases |parts|
  {
    if |parts| == 0 then []
    else (if |parts[0]| > 0 then [parts[0]] else []) + NonEmpty(parts[1..])
  }

  /** The filter keeps exactly the non-empty parts. */
  lemma {:induction false} NonEmptyMembers(parts: seq<string>)
    ensures forall p :: p in NonEmpty(parts) <==> p in parts && |p| > 0
    decreases |parts|
  {
    if |parts| > 0 {
      NonEmptyMembers(parts[1..]);
      assert parts == [parts[0]] + parts[1..];
    }
  }

  /** Filtering distributes over concatenation, so order is kept. */
  lemma {:induction false} NonEmptyAppend(a: seq<string>, b: seq<string>)
    ensures NonEmpty(a + b) == NonEmpty(a) + NonEmpty(b)
    decreases |a|
  {
    if |a| == 0 {
      assert a + b == b;
    } else {
      assert (a + b)[0] == a[0];
      assert (a + b)[1..] == a[1..] + b;
      NonEmptyAppend(a[1..], b);
    }
  }

  /** `String.prototype.startsWith`. */
  predicate StartsWith(s: string, prefix: string) {
    |prefix| <= |s| && s[..|prefix|] == prefix
  }

  function Min(a: int, b: int): int { if a <= b then a else b }

  function Max(a: int, b: int): int { if a <= b then b else a }

  /** `String.prototype.substring(start, end)`: both positions are clamped to
      [0, |s|] and swapped when given in the wrong order. */
  function Substring(s: string, start: int, end: int): (r: string)
    ensures |r| <= |s|
    ensures 0 <= start <= end <= |s| ==> r == s[start..end]
    ensures 0 <= start <= |s| <= end ==> r == s[start..]
    ensures |s| <= start && |s| <= end ==> r == []
  {
    var a := Min(Max(start, 0), |s|);
    var b := Min(Max(end, 0), |s|);
    s[Min(a, b)..Max(a, b)]
  }

  /** `String.prototype.padStart(width, fill)` for a one-character fill:
      `fill` is prepended until the length reaches `width`; a string already
      that long is returned unchanged, never truncated. */
  function PadStart(s: string, width: nat, fill: char): (r: string)
    ensures |r| == Max(|s|, width)
    ensures r[|r| - |s|..] == s
    ensures forall i :: 0 <= i < |r| - |s| ==> r[i] == fill
  {
    if |s| >= width then s else seq(width - |s|, _ => fill) + s
  }

  predicate IsDecimalDigit(c: char) {
    '0' <= c <= '9'
  }

  function DigitChar(d: nat): (c: char)
    requires d < 10
    ensures IsDecimalDigit(c)
  {
    ('0' as int + d) as char
  }

  function Pow10(n: nat): (p: nat)
    ensures p >= 1
  {
    if n == 0 then 1 else 10 * Pow10(n - 1)
  }

  /** The base-10 rendering of a natural number: digits only, and no leading
      zero except in "0" itself. */
  function NatToDecimal(n: nat): (r: string)
    ensures |r| >= 1
    ensures forall i :: 0 <= i < |r| ==> IsDecimalDigit(r[i])
    ensures r[0] == '0' ==> n == 0 && r == "0"
    decreases n
  {
    if n < 10 then [DigitChar(n)] else NatToDecimal(n / 10) + [DigitChar(n % 10)]
  }

  /** The rendering fits in `w` characters exactly when `n < 10^w`. */
  lemma {:induction false} NatToDecimalLength(n: nat, w: nat)
    requires w >= 1
    ensures |NatToDecimal(n)| <= w <==> n < Pow10(w)
    decreases n
  {
    if n >= 10 {
      if w == 1 {
        assert Pow10(1) == 10;
      } else {
        NatToDecimalLength(n / 10, w - 1);
      }
    } else {
      assert Pow10(w) == 10 * Pow10(w - 1);
    }
  }

  /** `Number.prototype.toString()` on an integer: a minus sign for negative
      values, then the digits of the magnitude. */
  function IntToString(n: int): (r: string)
    ensures |r| >= 1
    ensures n >= 0 ==> r == NatToDecimal(n)
    ensures n < 0 ==> r == "-" + NatToDecimal(-n)
    ensures n < 0 <==> r[0] == '-'
    ensures forall i :: 0 <= i < |r| ==> IsDecimalDigit(r[i]) || r[i] == '-'
  {
    if n < 0 then "-" + NatToDecimal(-n) else NatToDecimal(n)
  }
}

=== FILE: properties.dfy ===
/** What the engine promises across events: the send gate, the connect
    sequence, survival of state across reconnects, in-order handling of
    fragments, resolution of pending steps, overwrite of intents, the
    toggles, and the ranges of every write it emits. */
module Properties {
  import opened Wrappers
  import opened JsText
  import opened JsNumber
  import opened Codec
  import opened Reconcile
  import opened Engine
  import opened Texts

  // ----- Inbound data touches only the parameters -----

  /** One knob's report changes that knob's parameter and nothing else, and
      sends only while the socket is live. */
  lemma OnReportFrame(s: State, k: Knob, n: Option<int>)
    ensures OnReport(s, k, n).state.(fa := s.fa, zzis := s.zzis, zzla := s.zzla) == s
    ensures forall j :: j != k ==> Get(OnReport(s, k, n).state, j) == Get(s, j)
    ensures !s.live ==> OnReport(s, k, n).sent == []
  {
    match n
    case None =>
    case Some(c) =>
      var r := Report(k, Get(s, k), c);
      var t := Put(s, k, r.param);
      assert OnReport(s, k, n).state == t;
  }

  /** Reports change the three parameters and nothing else, and send only
      while the socket is live. */
  lemma OnReadingFrame(s: State, r: Reading)
    ensures OnReading(s, r).state.(fa := s.fa, zzis := s.zzis, zzla := s.zzla) == s
    ensures !s.live ==> OnReading(s, r).sent == []
  {
    var a := OnReport(s, FA, r.fa);
    OnReportFrame(s, FA, r.fa);
    var b := OnReport(a.state, ZZIS, r.zzis);
    OnReportFrame(a.state, ZZIS, r.zzis);
    var c := OnReport(b.state, ZZLA, r.zzla);
    OnReportFrame(b.state, ZZLA, r.zzla);
  }

  lemma OnFragmentFrame(s: State, frag: string)
    ensures OnFragment(s, frag).state.(fa := s.fa, zzis := s.zzis, zzla := s.zzla) == s
    ensures !s.live ==> OnFragment(s, frag).sent == []
  {
    OnReadingFrame(s, ReadingOf(frag));
  }

  /** A whole chunk changes only the parameters, and sends nothing while the
      socket is down. */
  lemma {:induction false} FragmentsFrame(s: State, frags: seq<string>)
    ensures Fold(OnFragment, s, frags).state.(fa := s.fa, zzis := s.zzis, zzla := s.zzla) == s
    ensures !s.live ==> Fold(OnFragment, s, frags).sent == []
    decreases |frags|
  {
    if |frags| > 0 {
      var a := OnFragment(s, frags[0]);
      OnFragmentFrame(s, frags[0]);
      FragmentsFrame(a.state, frags[1..]);
    }
  }

  /** A fragment that carries a number for knob `k` carries none for the
      other two knobs. */
  lemma DecodeExclusive(k: Knob, frag: string, c: int)
    requires Decode(k, frag) == Some(c)
    ensures forall j :: j != k ==> Decode(j, frag) == None
  {
    forall j | j != k
      ensures Decode(j, frag) == None
    {
      if StartsWith(frag, FieldOf(j).tag) {
        TagsExclusive(frag, j, k);
      }
    }
  }

  /** A fragment that carries a number for knob `k` acts on `k` alone: it is
      exactly one authoritative report for that knob. */
  lemma FragmentReports(s: State, k: Knob, frag: string, c: int)
    requires Decode(k, frag) == Some(c)
    ensures var r := Report(k, Get(s, k), c);
            OnFragment(s, frag)
            == Step(Put(s, k, r.param), if r.write.Some? then Send(s, r.write.value) else [])
  {
    DecodeExclusive(k, frag, c);
    ReadingOnlyKnob(s, k, ReadingOf(frag));
  }

  /** When a reading names only knob `k`, the other two branches pass it
      over. */
  lemma ReadingOnlyKnob(s: State, k: Knob, r: Reading)
    requires forall j :: j != k ==> r.At(j) == None
    ensures OnReading(s, r) == OnReport(s, k, r.At(k))
  {
    var a := OnReport(s, FA, r.fa);
    var b := OnReport(a.state, ZZIS, r.zzis);
    var d := OnReport(b.state, ZZLA, r.zzla);
    match k
    case FA =>
      assert r.zzis == r.At(ZZIS) == None && r.zzla == r.At(ZZLA) == None;
      assert a.sent + b.sent + d.sent == a.sent;
    case ZZIS =>
      assert r.fa == r.At(FA) == None && r.zzla == r.At(ZZLA) == None;
      assert a.sent + b.sent + d.sent == b.sent;
    case ZZLA =>
      assert r.fa == r.At(FA) == None && r.zzis == r.At(ZZIS) == None;
      assert a.sent + b.sent + d.sent == d.sent;
  }

  /** A fragment that carries no number for any knob is ignored: no state
      changes and nothing is sent. With `Codec.DecodeMalformed` this covers
      every tagged fragment whose payload has no leading digit. */
  lemma FragmentIgnored(s: State, frag: string)
    requires forall k :: Decode(k, frag) == None
    ensures OnFragment(s, frag) == Step(s, [])
  {
    var r := ReadingOf(frag);
    assert r.fa == r.At(FA) && r.zzis == r.At(ZZIS) && r.zzla == r.At(ZZLA);
  }

  // ----- Chunks: split, order -----

  /** Folding over two sequences one after the other is folding over their
      concatenation. */
  lemma {:induction false} FoldAppend<E>(step: (State, E) -> Step, s: State, xs: seq<E>, ys: seq<E>)
    ensures var x := Fold(step, s, xs);
            var y := Fold(step, x.state, ys);
            Fold(step, s, xs + ys) == Step(y.state, x.sent + y.sent)
    decreases |xs|
  {
    if |xs| == 0 {
      assert xs + ys == ys;
    } else {
      var a := step(s, xs[0]);
      assert (xs + ys)[0] == xs[0];
      assert (xs + ys)[1..] == xs[1..] + ys;
      FoldAppend(step, a.state, xs[1..], ys);
      var rest := Fold(step, a.state, xs[1..]);
      var y := Fold(step, rest.state, ys);
      assert a.sent + (rest.sent + y.sent) == (a.sent + rest.sent) + y.sent;
    }
  }

  /** Folding over one item is taking one step. */
  lemma FoldOne<E>(step: (State, E) -> Step, s: State, x: E)
    ensures Fold(step, s, [x]) == step(s, x)
  {
    assert [x][1..] == [];
    assert step(s, x).sent + [] == step(s, x).sent;
  }

  /** Two `;`-separated pieces of one chunk are handled as if they had
      arrived one after the other, the first one first. */
  lemma ChunkInOrder(s: State, a: string, b: string)
    requires IsTrimmed(a) && IsTrimmed(b)
    ensures var x := OnChunk(s, a);
            var y := OnChunk(x.state, b);
            OnChunk(s, a + ";" + b) == Step(y.state, x.sent + y.sent)
  {
    var ab := a + ";" + b;
    assert ab == a + [';'] + b;
    assert ab[0] == (if |a| > 0 then a[0] else ';');
    assert ab[|ab| - 1] == (if |b| > 0 then b[|b| - 1] else ';');
    assert Trim(ab) == ab;
    assert Trim(a) == a && Trim(b) == b;
    SplitAppend(a, b, ';');
    NonEmptyAppend(Split(a, ';'), Split(b, ';'));
    FoldAppend(OnFragment, s, Fragments(a), Fragments(b));
  }

  /** A chunk holding one rendered write of a value in range is one report
      of that value for its knob. */
  lemma ChunkOfWrite(s: State, k: Knob, c: int)
    requires 0 <= c < Pow10(FieldOf(k).width)
    ensures var r := Report(k, Get(s, k), c);
            OnChunk(s, Render(Write(k, c)))
            == Step(Put(s, k, r.param), if r.write.Some? then Send(s, r.write.value) else [])
  {
    DecodeRenderWrite(k, c);
    var frag := FieldOf(k).tag + Payload(k, c);
    FragmentReports(s, k, frag, c);
    FoldOne(OnFragment, s, frag);
  }

  // ----- Resolution at the engine level -----

  /** A report with a step pending settles the knob on the clamped sum,
      clears the step and sends exactly one write of the new value. */
  lemma ReportResolvesPending(s: State, k: Knob, c: int)
    requires Get(s, k).pending != 0
    requires 0 <= c < Pow10(FieldOf(k).width)
    ensures var v := Settle(k, c + Get(s, k).pending);
            OnChunk(s, Render(Write(k, c))) == Step(Put(s, k, Param(v, 0)), Send(s, Write(k, v)))
  {
    var v := Settle(k, c + Get(s, k).pending);
    assert Report(k, Get(s, k), c) == Resolution(Param(v, 0), Some(Write(k, v)));
    ChunkOfWrite(s, k, c);
  }

  /** A report with nothing pending only refreshes the current value, even
      outside the knob's range, and sends nothing. */
  lemma ReportWithNothingPending(s: State, k: Knob, c: int)
    requires Get(s, k).pending == 0
    requires 0 <= c < Pow10(FieldOf(k).width)
    ensures OnChunk(s, Render(Write(k, c))) == Step(Put(s, k, Param(c, 0)), [])
  {
    ChunkOfWrite(s, k, c);
  }

  // ----- Link: send gate, connect sequence, reconnect -----

  /** While no live socket exists, no event sends anything, and only the
      reconnect timer brings the link back. */
  lemma SilentWhenDown(s: State, e: Event)
    requires !s.live
    ensures Next(s, e).sent == []
    ensures !e.RetryFired? ==> !Next(s, e).state.live
  {
    match e
    case Data(chunk) => ChunkWhileDown(s, chunk);
    case Key(name, down, ctrlAlt) => KeyWhileDown(s, name, down, ctrlAlt);
    case Connected =>
    case Closed =>
    case RetryFired =>
  }

  /** Data handled while the socket is down sends nothing and leaves it down. */
  lemma ChunkWhileDown(s: State, chunk: string)
    requires !s.live
    ensures OnChunk(s, chunk).sent == []
    ensures !OnChunk(s, chunk).state.live
  {
    FragmentsFrame(s, Fragments(chunk));
  }

  /** A key handled while the socket is down sends nothing and leaves it down. */
  lemma KeyWhileDown(s: State, key: string, down: bool, ctrlAlt: bool)
    requires !s.live
    ensures OnKey(s, key, down, ctrlAlt).sent == []
    ensures !OnKey(s, key, down, ctrlAlt).state.live
  {
    var t := ToggleStep(s, key, down, ctrlAlt);
    assert !t.live;
    match KeyIntent(key, down, ctrlAlt)
    case None =>
    case Some(i) =>
      match i
      case Nudge(k, up) => assert Put(t, k, Queue(Get(t, k), StepDelta(t, k, up))).live == t.live;
      case ResetShift =>
      case ToggleMute =>
      case BandStep(up) =>
      case TogglePtt =>
  }

  /** Until the reconnect timer fires, a closed link stays closed and every
      command is dropped. */
  lemma {:induction false} RunSilentWhileDown(s: State, events: seq<Event>)
    requires !s.live
    requires forall i :: 0 <= i < |events| ==> !events[i].RetryFired?
    ensures Run(s, events).sent == []
    ensures !Run(s, events).state.live
    decreases |events|
  {
    if |events| > 0 {
      var a := Next(s, events[0]);
      SilentWhenDown(s, events[0]);
      assert forall i :: 0 <= i < |events[1..]| ==> !events[1..][i].RetryFired? by {
        forall i | 0 <= i < |events[1..]| ensures !events[1..][i].RetryFired? {
          assert events[1..][i] == events[i + 1];
        }
      }
      RunSilentWhileDown(a.state, events[1..]);
    }
  }

  /** Every connect asks for `FA`, `ZZIS` and `ZZLA`, in that order, and
      changes no state. */
  lemma ConnectSequence(s: State)
    requires s.live
    ensures Next(s, Connected) == Step(s, [Read(FA), Read(ZZIS), Read(ZZLA)])
    ensures Wire(Next(s, Connected).sent) == ["FA;", "ZZIS;", "ZZLA;"]
  {
    ReadTexts();
  }

  /** A close followed by the reconnect timer leaves every value and every
      pending step as it was. */
  lemma CloseKeepsParameters(s: State)
    ensures Run(s, [Closed]).state.(live := s.live, retryScheduled := s.retryScheduled) == s
    ensures Run(s, [Closed, RetryFired]) == Step(s.(live := true, retryScheduled := false), [])
  {
    FoldOne(Next, s, Closed);
    var a := OnClosed(s);
    FoldAppend(Next, s, [Closed], [RetryFired]);
    FoldOne(Next, a.state, RetryFired);
    assert [Closed] + [RetryFired] == [Closed, RetryFired];
  }

  /** Close, reconnect timer, connect: the replayed read requests go out and
      no value or pending step has changed. */
  lemma ReconnectReplaysReads(s: State)
    ensures Run(s, [Closed, RetryFired, Connected])
            == Step(s.(live := true, retryScheduled := false), [Read(FA), Read(ZZIS), Read(ZZLA)])
  {
    var up := s.(live := true, retryScheduled := false);
    CloseKeepsParameters(s);
    ConnectSequence(up);
    FoldOne(Next, up, Connected);
    FoldAppend(Next, s, [Closed, RetryFired], [Connected]);
    assert [Closed, RetryFired] + [Connected] == [Closed, RetryFired, Connected];
  }

  /** On a live link, a report event resolving a pending step sends exactly
      the one write. */
  lemma LiveReportResolves(s: State, k: Knob, c: int)
    requires s.live && Get(s, k).pending != 0
    requires 0 <= c < Pow10(FieldOf(k).width)
    ensures var v := Settle(k, c + Get(s, k).pending);
            Next(s, Data(Render(Write(k, c)))) == Step(Put(s, k, Param(v, 0)), [Write(k, v)])
  {
    ReportResolvesPending(s, k, c);
  }

  /** Whatever event follows a reconnect is handled on a live state holding
      every value and pending step from before the close, after the replayed
      read requests. */
  lemma AfterReconnect(s: State, e: Event, x: Step)
    requires x == Next(s.(live := true, retryScheduled := false), e)
    ensures Run(s, [Closed, RetryFired, Connected, e])
            == Step(x.state, [Read(FA), Read(ZZIS), Read(ZZLA)] + x.sent)
  {
    var up := s.(live := true, retryScheduled := false);
    ReconnectReplaysReads(s);
    FoldOne(Next, up, e);
    FoldAppend(Next, s, [Closed, RetryFired, Connected], [e]);
    assert [Closed, RetryFired, Connected] + [e] == [Closed, RetryFired, Connected, e];
  }

  /** The state a reconnect leaves behind is live and holds every value and
      pending step from before the close, so `LiveReportResolves` applies to
      the report that answers the replayed read request. */
  lemma ReconnectKeepsPending(s: State)
    ensures var up := Run(s, [Closed, RetryFired, Connected]).state;
            up.live && forall j :: Get(up, j) == Get(s, j)
  {
    ReconnectReplaysReads(s);
  }

  // ----- Intents -----

  /** The key map with Ctrl+Alt held: the arrows step the frequency,
      PAGE UP / PAGE DOWN step `ZZIS`, HOME / END step `ZZLA`, F2 resets
      `ZZIS` and F3 toggles mute. */
  lemma KeyMapCtrlAlt()
    ensures KeyIntent("UP", true, true) == KeyIntent("UP ARROW", true, true) == Some(Nudge(FA, true))
    ensures KeyIntent("DOWN", true, true) == KeyIntent("DOWN ARROW", true, true) == Some(Nudge(FA, false))
    ensures KeyIntent("PAGE UP", true, true) == Some(Nudge(ZZIS, true))
    ensures KeyIntent("PAGE DOWN", true, true) == Some(Nudge(ZZIS, false))
    ensures KeyIntent("F2", true, true) == Some(ResetShift)
    ensures KeyIntent("HOME", true, true) == Some(Nudge(ZZLA, true))
    ensures KeyIntent("END", true, true) == Some(Nudge(ZZLA, false))
    ensures KeyIntent("F3", true, true) == Some(ToggleMute)
  {
  }

  /** Without Ctrl+Alt the same keys ask for nothing. */
  lemma KeysNeedCtrlAlt(key: string)
    requires key in ["UP", "UP ARROW", "DOWN", "DOWN ARROW", "PAGE UP", "PAGE DOWN", "F2", "HOME", "END", "F3"]
    ensures KeyIntent(key, true, false) == None
  {
  }

  /** The keys that act with or without Ctrl+Alt: F16 toggles mute, F22 /
      F23 step the band down / up, F21 / F24 toggle PTT; releases do
      nothing. */
  lemma KeyMap(ctrlAlt: bool)
    ensures KeyIntent("F16", true, ctrlAlt) == Some(ToggleMute)
    ensures KeyIntent("F22", true, ctrlAlt) == Some(BandStep(false))
    ensures KeyIntent("F23", true, ctrlAlt) == Some(BandStep(true))
    ensures KeyIntent("F21", true, ctrlAlt) == KeyIntent("F24", true, ctrlAlt) == Some(TogglePtt)
    ensures forall key, c :: KeyIntent(key, false, c) == None
  {
  }

  /** Only the fifteen keys the listener names ever fire an intent. */
  lemma KeyIntentBound(key: string, down: bool, ctrlAlt: bool)
    requires KeyIntent(key, down, ctrlAlt).Some?
    ensures key in ["UP", "UP ARROW", "DOWN", "DOWN ARROW", "PAGE UP", "PAGE DOWN",
                    "F2", "HOME", "END", "F3", "F16", "F21", "F22", "F23", "F24"]
  {
  }

  /** A second step intent on a knob replaces the first: the pending step is
      the last one asked for, and each intent sends the bare read request. */
  lemma IntentOverwrites(s: State, k: Knob, up1: bool, up2: bool)
    ensures var a := OnIntent(s, Nudge(k, up1));
            var b := OnIntent(a.state, Nudge(k, up2));
            Get(b.state, k) == Param(Get(s, k).current, StepDelta(s, k, up2))
            && a.sent == b.sent == Send(s, Read(k))
  {
  }

  /** Step sizes: the current `stepSize` for the frequency, 100 for `ZZIS`,
      5 for `ZZLA`. */
  lemma StepSizes(s: State, up: bool)
    ensures StepDelta(s, FA, up) == (if up then s.stepSize else -s.stepSize)
    ensures StepDelta(s, ZZIS, up) == (if up then 100 else -100)
    ensures StepDelta(s, ZZLA, up) == (if up then 5 else -5)
  {
  }

  /** The F2 reset sets `ZZIS` to 3000 and writes `ZZIS03000;` at once,
      leaving any pending `ZZIS` step in place. */
  lemma ResetShiftWrites(s: State)
    ensures OnKey(s, "F2", true, true)
            == Step(s.(zzis := Param(3000, s.zzis.pending)), Send(s, Write(ZZIS, 3000)))
    ensures Render(Write(ZZIS, 3000)) == "ZZIS03000;"
  {
    KeyMapCtrlAlt();
    assert ToggleStep(s, "F2", true, true) == s;
    Text3000();
  }

  /** Ctrl+Alt+F1 switches the step between 100 and 1000 Hz once; further
      presses while F1 is held do nothing; releasing F1 re-arms the toggle. */
  lemma StepToggleOncePerPress(s: State, ctrlAlt: bool)
    requires !s.stepToggleLock
    ensures var flipped := if s.stepSize == 100 then 1000 else 100;
            Run(s, [Key("F1", true, true), Key("F1", true, true), Key("F1", false, ctrlAlt)])
            == Step(s.(stepSize := flipped), [])
  {
    var flipped := if s.stepSize == 100 then 1000 else 100;
    var held := s.(stepSize := flipped, stepToggleLock := true);
    assert KeyIntent("F1", true, true) == None;
    assert KeyIntent("F1", false, ctrlAlt) == None;
    assert Next(s, Key("F1", true, true)) == Step(held, []);
    assert Next(held, Key("F1", true, true)) == Step(held, []);
    assert Next(held, Key("F1", false, ctrlAlt)) == Step(s.(stepSize := flipped), []);
    FoldOne(Next, s, Key("F1", true, true));
    FoldOne(Next, held, Key("F1", true, true));
    FoldOne(Next, held, Key("F1", false, ctrlAlt));
    FoldAppend(Next, s, [Key("F1", true, true)], [Key("F1", true, true)]);
    FoldAppend(Next, s, [Key("F1", true, true), Key("F1", true, true)], [Key("F1", false, ctrlAlt)]);
    assert [Key("F1", true, true)] + [Key("F1", true, true)] == [Key("F1", true, true), Key("F1", true, true)];
    assert [Key("F1", true, true), Key("F1", true, true)] + [Key("F1", false, ctrlAlt)]
        == [Key("F1", true, true), Key("F1", true, true), Key("F1", false, ctrlAlt)];
  }

  /** F16, or F3 with Ctrl+Alt, flips the mute state and sends the command
      matching the new state. */
  lemma MuteToggles(s: State, key: string, ctrlAlt: bool)
    requires key == "F16" || (key == "F3" && ctrlAlt)
    ensures OnKey(s, key, true, ctrlAlt)
            == Step(s.(muteState := !s.muteState), Send(s, Mute(!s.muteState)))
    ensures Render(Mute(true)) == "ZZMA1;" && Render(Mute(false)) == "ZZMA0;"
  {
    KeyMapCtrlAlt();
    KeyMap(ctrlAlt);
    assert KeyIntent(key, true, ctrlAlt) == Some(ToggleMute);
    assert ToggleStep(s, key, true, ctrlAlt) == s;
  }

  /** F21 or F24 flips the PTT state and sends `TX;` when it turns on,
      `RX;` when it turns off. */
  lemma PttToggles(s: State, key: string, ctrlAlt: bool)
    requires key == "F21" || key == "F24"
    ensures OnKey(s, key, true, ctrlAlt)
            == Step(s.(pttState := !s.pttState), Send(s, Ptt(!s.pttState)))
    ensures Render(Ptt(true)) == "TX;" && Render(Ptt(false)) == "RX;"
  {
    KeyMap(ctrlAlt);
    assert KeyIntent(key, true, ctrlAlt) == Some(TogglePtt);
    assert ToggleStep(s, key, true, ctrlAlt) == s;
  }
  // ----- Invariants over any run -----

  /** A write the engine sends for a clamped knob carries a value inside
      that knob's range. */
  predicate WriteInRange(c: Command)
  {
    c.Write? && Limits(c.knob).Some? ==> Limits(c.knob).value.lo <= c.value <= Limits(c.knob).value.hi
  }

  predicate AllInRange(cmds: seq<Command>)
  {
    forall i :: 0 <= i < |cmds| ==> WriteInRange(cmds[i])
  }

  /** The engine's own invariant: the frequency step is 100 or 1000 Hz, and
      each pending step is one that an intent can queue, or none. */
  predicate Inv(s: State)
  {
    && (s.stepSize == 100 || s.stepSize == 1000)
    && StepOrNone(s.fa.pending, 100, 1000)
    && StepOrNone(s.zzis.pending, 100, 100)
    && StepOrNone(s.zzla.pending, 5, 5)
  }

  /** No step, or a step of one of two sizes in either direction. */
  predicate StepOrNone(d: int, small: int, large: int)
  {
    d == 0 || d == small || d == -small || d == large || d == -large
  }

  lemma InitialInv()
    ensures Inv(Initial)
  {
  }

  /** One knob's report keeps the invariant and writes only in range. */
  lemma OnReportSafe(s: State, k: Knob, n: Option<int>)
    requires Inv(s)
    ensures Inv(OnReport(s, k, n).state)
    ensures AllInRange(OnReport(s, k, n).sent)
  {
    match n
    case None =>
    case Some(c) =>
      var r := Report(k, Get(s, k), c);
      var t := Put(s, k, r.param);
      assert t.stepSize == s.stepSize;
      if r.write.Some? {
        assert WriteInRange(r.write.value);
      }
  }

  lemma OnReadingSafe(s: State, r: Reading)
    requires Inv(s)
    ensures Inv(OnReading(s, r).state)
    ensures AllInRange(OnReading(s, r).sent)
  {
    var a := OnReport(s, FA, r.fa);
    OnReportSafe(s, FA, r.fa);
    var b := OnReport(a.state, ZZIS, r.zzis);
    OnReportSafe(a.state, ZZIS, r.zzis);
    var c := OnReport(b.state, ZZLA, r.zzla);
    OnReportSafe(b.state, ZZLA, r.zzla);
    assert OnReading(s, r) == Step(c.state, a.sent + b.sent + c.sent);
  }

  lemma OnFragmentSafe(s: State, frag: string)
    requires Inv(s)
    ensures Inv(OnFragment(s, frag).state)
    ensures AllInRange(OnFragment(s, frag).sent)
  {
    OnReadingSafe(s, ReadingOf(frag));
  }

  lemma {:induction false} FragmentsSafe(s: State, frags: seq<string>)
    requires Inv(s)
    ensures Inv(Fold(OnFragment, s, frags).state)
    ensures AllInRange(Fold(OnFragment, s, frags).sent)
    decreases |frags|
  {
    if |frags| > 0 {
      var a := OnFragment(s, frags[0]);
      OnFragmentSafe(s, frags[0]);
      FragmentsSafe(a.state, frags[1..]);
      AllInRangeAppend(a.sent, Fold(OnFragment, a.state, frags[1..]).sent);
    }
  }

  lemma AllInRangeAppend(xs: seq<Command>, ys: seq<Command>)
    requires AllInRange(xs) && AllInRange(ys)
    ensures AllInRange(xs + ys)
  {
    forall i | 0 <= i < |xs + ys| ensures WriteInRange((xs + ys)[i]) {
      if i < |xs| { assert (xs + ys)[i] == xs[i]; } else { assert (xs + ys)[i] == ys[i - |xs|]; }
    }
  }

  /** A step intent queues a step the invariant allows. */
  lemma NudgeSafe(s: State, k: Knob, up: bool)
    requires Inv(s)
    ensures Inv(OnIntent(s, Nudge(k, up)).state)
  {
    var t := Put(s, k, Queue(Get(s, k), StepDelta(s, k, up)));
    assert t.stepSize == s.stepSize;
    match k
    case FA => assert t.fa.pending == StepDelta(s, FA, up);
    case ZZIS => assert t.zzis.pending == StepDelta(s, ZZIS, up);
    case ZZLA => assert t.zzla.pending == StepDelta(s, ZZLA, up);
  }

  lemma OnIntentSafe(s: State, i: Intent)
    requires Inv(s)
    ensures Inv(OnIntent(s, i).state)
    ensures AllInRange(OnIntent(s, i).sent)
  {
    match i
    case Nudge(k, up) => NudgeSafe(s, k, up);
    case ResetShift =>
      assert WriteInRange(Write(ZZIS, 3000));
    case ToggleMute =>
    case BandStep(up) =>
    case TogglePtt =>
  }

  lemma OnKeySafe(s: State, key: string, down: bool, ctrlAlt: bool)
    requires Inv(s)
    ensures Inv(OnKey(s, key, down, ctrlAlt).state)
    ensures AllInRange(OnKey(s, key, down, ctrlAlt).sent)
  {
    var t := ToggleStep(s, key, down, ctrlAlt);
    assert Inv(t);
    match KeyIntent(key, down, ctrlAlt)
    case None =>
    case Some(i) => OnIntentSafe(t, i);
  }

  lemma NextSafe(s: State, e: Event)
    requires Inv(s)
    ensures Inv(Next(s, e).state)
    ensures AllInRange(Next(s, e).sent)
  {
    match e
    case Data(chunk) => FragmentsSafe(s, Fragments(chunk));
    case Key(name, down, ctrlAlt) => OnKeySafe(s, name, down, ctrlAlt);
    case Connected =>
    case Closed =>
    case RetryFired =>
  }

  /** From a state that satisfies the invariant, whatever the radio reports
      and whatever keys are pressed: the invariant holds throughout, and
      every `ZZIS` and `ZZLA` write sent is within its range. */
  lemma {:induction false} RunSafe(s: State, events: seq<Event>)
    requires Inv(s)
    ensures Inv(Run(s, events).state)
    ensures AllInRange(Run(s, events).sent)
    decreases |events|
  {
    if |events| > 0 {
      var a := Next(s, events[0]);
      NextSafe(s, events[0]);
      RunSafe(a.state, events[1..]);
    }
  }

  // ----- Worked scenarios -----

  /** Stepping the frequency down from 14.2 MHz: the report `FA00014200000;`
      with a 1000 Hz step down pending sends `FA00014199000;`. */
  lemma FrequencyStepDown(s: State)
    requires s.live && s.fa.pending == -1000
    ensures Next(s, Data("FA00014200000;"))
            == Step(s.(fa := Param(14199000, 0)), [Write(FA, 14199000)])
    ensures Render(Write(FA, 14199000)) == "FA00014199000;"
  {
    Text14200000();
    Text14199000();
    LiveReportResolves(s, FA, 14200000);
  }

  /** At the top of the `ZZIS` range a further step up still sends one
      write, of the clamped value `ZZIS10000;`. */
  lemma ShiftAtCeiling(s: State)
    requires s.live && s.zzis.pending == 100
    ensures Next(s, Data("ZZIS10000;"))
            == Step(s.(zzis := Param(10000, 0)), [Write(ZZIS, 10000)])
  {
    Text10000();
    LiveReportResolves(s, ZZIS, 10000);
  }

  /** A report with nothing pending is stored as it arrives, even outside
      the knob's range. */
  lemma StrayReportUnclamped(s: State)
    requires s.zzis.pending == 0
    ensures Next(s, Data("ZZIS99999;")) == Step(s.(zzis := Param(99999, 0)), [])
  {
    Text99999();
    ReportWithNothingPending(s, ZZIS, 99999);
  }
}

=== FILE: reconcile.dfy ===
/** Per-parameter reconciliation: a pending relative step waits for the
    radio's authoritative value, is applied to it, clamped, written back once
    and cleared (tcp-macro.js, the `data` handler and `setFrequency`). */
module Reconcile {
  import opened Wrappers
  import opened JsText
  import opened Codec

  /** One tracked parameter: the last value taken as current, and the step
      waiting for the next report (0 when none is waiting). */
  datatype Param = Param(current: int, pending: int)

  /** An inclusive range. */
  datatype Bounds = Bounds(lo: int, hi: int)

  /** The range a resolved value is clamped to: `ZZIS` to [100, 10000],
      `ZZLA` to [0, 100]; the frequency is not clamped. */
  function Limits(k: Knob): (b: Option<Bounds>)
    ensures b.Some? ==> b.value.lo <= b.value.hi
  {
    match k
    case FA => None
    case ZZIS => Some(Bounds(100, 10000))
    case ZZLA => Some(Bounds(0, 100))
  }

  /** `Math.max(lo, Math.min(hi, x))`. */
  function Clamp(b: Bounds, x: int): (r: int)
    requires b.lo <= b.hi
    ensures b.lo <= r <= b.hi
    ensures b.lo <= x <= b.hi ==> r == x
    ensures x < b.lo ==> r == b.lo
    ensures x > b.hi ==> r == b.hi
  {
    Max(b.lo, Min(b.hi, x))
  }

  /** The value a knob settles on: it lies in the knob's range, a value
      already in range is left alone, one outside it goes to the nearer
      bound, and a knob without a range (the frequency) is never changed. */
  function Settle(k: Knob, x: int): (r: int)
    ensures Limits(k).Some? ==> Limits(k).value.lo <= r <= Limits(k).value.hi
    ensures Limits(k).Some? && Limits(k).value.lo <= x <= Limits(k).value.hi ==> r == x
    ensures Limits(k).Some? && x < Limits(k).value.lo ==> r == Limits(k).value.lo
    ensures Limits(k).Some? && x > Limits(k).value.hi ==> r == Limits(k).value.hi
    ensures Limits(k).None? ==> r == x
  {
    match Limits(k)
    case None => x
    case Some(b) => Clamp(b, x)
  }

  /** The outcome of one authoritative report: the updated parameter and the
      write to send, if any. */
  datatype Resolution = Resolution(param: Param, write: Option<Command>)

  /** A report of `reported` for knob `k`. With nothing pending it only
      refreshes the current value. With a step pending it settles
      `reported + pending`, stores it, produces exactly one write of it (even
      when the clamp leaves it equal to the report) and clears the step. */
  function Report(k: Knob, p: Param, reported: int): (r: Resolution)
    ensures r.param.pending == 0
    ensures r.write.None? <==> p.pending == 0
    ensures r.write.None? ==> r.param.current == reported
    ensures r.write.Some? ==> r.write.value == Write(k, r.param.current)
    ensures r.write.Some? ==> r.param.current == Settle(k, reported + p.pending)
  {
    if p.pending != 0 then
      var v := Settle(k, reported + p.pending);
      Resolution(Param(v, 0), Some(Write(k, v)))
    else
      Resolution(Param(reported, p.pending), None)
  }

  /** A local intent: replace whatever step is pending (last intent wins). */
  function Queue(p: Param, delta: int): (q: Param)
    ensures q.current == p.current && q.pending == delta
  {
    p.(pending := delta)
  }

  /** The radio is the source of truth: the outcome of a report does not
      depend on the value previously held. */
  lemma ReportIgnoresStaleValue(k: Knob, p: Param, q: Param, reported: int)
    requires p.pending == q.pending
    ensures Report(k, p, reported) == Report(k, q, reported)
  {
  }

  /** Two intents before a reply: only the second is applied. */
  lemma {:induction false} QueueOverwrites(k: Knob, p: Param, d1: int, d2: int, reported: int)
    ensures Report(k, Queue(Queue(p, d1), d2), reported) == Report(k, Queue(p, d2), reported)
  {
    ReportIgnoresStaleValue(k, Queue(Queue(p, d1), d2), Queue(p, d2), reported);
  }

  /** A second report after a resolution writes nothing: a step is applied
      at most once. */
  lemma ResolveOnce(k: Knob, p: Param, c1: int, c2: int)
    ensures Report(k, Report(k, p, c1).param, c2) == Resolution(Param(c2, 0), None)
  {
  }

  /** The write a resolution produces carries a value its own decoder reads
      back: always for `ZZIS` and `ZZLA`, whose clamp keeps it within the
      payload width, and for `FA` whenever the new frequency has at most
      eleven digits. */
  lemma ResolvedWriteDecodes(k: Knob, p: Param, reported: int)
    requires p.pending != 0
    requires k == FA ==> 0 <= reported + p.pending < Pow10(11)
    ensures var r := Report(k, p, reported);
            Fragments(Render(r.write.value)) == [FieldOf(k).tag + Payload(k, r.param.current)]
            && Decode(k, FieldOf(k).tag + Payload(k, r.param.current)) == Some(r.param.current)
  {
    var v := Report(k, p, reported).param.current;
    assert Pow10(3) == 1000 && Pow10(5) == 100000;
    DecodeRenderWrite(k, v);
  }
}

=== FILE: texts.dfy ===
/** The exact wire text of the commands that appear in the worked
    scenarios, computed digit by digit. */
module Texts {
  import opened JsText
  import opened Codec

  /** A write is its tag, the zero-padded decimal value and `;`. */
  lemma WriteText(k: Knob, v: int)
    ensures Render(Write(k, v)) == FieldOf(k).tag + PadStart(IntToString(v), FieldOf(k).width, '0') + ";"
  {
  }

  /** The bare read requests sent on every connect. */
  lemma ReadTexts()
    ensures Render(Read(FA)) == "FA;"
    ensures Render(Read(ZZIS)) == "ZZIS;"
    ensures Render(Read(ZZLA)) == "ZZLA;"
  {
  }

  lemma Digits14200000()
    ensures IntToString(14200000) == "14200000"
  {
    assert NatToDecimal(14) == "14";
    assert NatToDecimal(142) == "142";
    assert NatToDecimal(1420) == "1420";
    assert NatToDecimal(14200) == "14200";
    assert NatToDecimal(142000) == "142000";
    assert NatToDecimal(1420000) == "1420000";
    assert NatToDecimal(14200000) == "14200000";
  }

  lemma Digits14199000()
    ensures IntToString(14199000) == "14199000"
  {
    assert NatToDecimal(14) == "14";
    assert NatToDecimal(141) == "141";
    assert NatToDecimal(1419) == "1419";
    assert NatToDecimal(14199) == "14199";
    assert NatToDecimal(141990) == "141990";
    assert NatToDecimal(1419900) == "1419900";
    assert NatToDecimal(14199000) == "14199000";
  }

  lemma Pad14200000()
    ensures PadStart("14200000", 11, '0') == "00014200000"
  {
  }

  lemma Pad14199000()
    ensures PadStart("14199000", 11, '0') == "00014199000"
  {
  }

  lemma Text14200000()
    ensures Render(Write(FA, 14200000)) == "FA00014200000;"
  {
    Digits14200000();
    Pad14200000();
    WriteText(FA, 14200000);
  }

  lemma Text14199000()
    ensures Render(Write(FA, 14199000)) == "FA00014199000;"
  {
    Digits14199000();
    Pad14199000();
    WriteText(FA, 14199000);
  }

  lemma Pad3000()
    ensures PadStart("3000", 5, '0') == "03000"
  {
  }

  lemma Text3000()
    ensures Render(Write(ZZIS, 3000)) == "ZZIS03000;"
  {
    assert NatToDecimal(30) == "30";
    assert NatToDecimal(300) == "300";
    assert IntToString(3000) == "3000";
    Pad3000();
    WriteText(ZZIS, 3000);
  }

  lemma Text10000()
    ensures Render(Write(ZZIS, 10000)) == "ZZIS10000;"
  {
    assert NatToDecimal(10) == "10";
    assert NatToDecimal(100) == "100";
    assert NatToDecimal(1000) == "1000";
    assert IntToString(10000) == "10000";
    assert PadStart("10000", 5, '0') == "10000";
    WriteText(ZZIS, 10000);
  }

  lemma Text99999()
    ensures Render(Write(ZZIS, 99999)) == "ZZIS99999;"
  {
    assert NatToDecimal(99) == "99";
    assert NatToDecimal(999) == "999";
    assert NatToDecimal(9999) == "9999";
    assert IntToString(99999) == "99999";
    assert PadStart("99999", 5, '0') == "99999";
    WriteText(ZZIS, 99999);
  }

  /** A `ZZLA` write is padded to three digits, and its payload is read to
      the end of the fragment. */
  lemma Text50()
    ensures Render(Write(ZZLA, 50)) == "ZZLA050;"
    ensures FieldOf(ZZLA).end.None?
  {
    assert NatToDecimal(50) == "50";
    assert PadStart("50", 3, '0') == "050";
    WriteText(ZZLA, 50);
  }

  /** A `ZZIS` write is padded to five digits, and its payload is read from
      position 4 up to position 9. */
  lemma Text100()
    ensures Render(Write(ZZIS, 100)) == "ZZIS00100;"
    ensures FieldOf(ZZIS).end.Some? && FieldOf(ZZIS).end.value == 9
    ensures Substring("ZZIS00100", 4, 9) == "00100"
  {
    assert NatToDecimal(10) == "10";
    assert NatToDecimal(100) == "100";
    assert PadStart("100", 5, '0') == "00100";
    WriteText(ZZIS, 100);
  }
}

=== FILE: wrappers.dfy ===
/** Optional values. */
module Wrappers {

  /** `None` stands for JavaScript's NaN where a number is parsed, and for
      "no write" where a report resolves nothing. */
  datatype Option<+T> = None | Some(value: T)
}
